=== FILE: README.md ===
# Movie booking: a Dafny model

This project models the deterministic core of a small movie-ticket booking web app. It covers:

- the server's `POST /api/bookings` handler as a transition on the database;
- the three filtered `GET` endpoints and the poster fallback of `GET /api/movies`;
- the record shapes and constraints of the database schema;
- the client's booking dialog, seat map, showtime grouping and movie search;
- the server's request-log line.

The database is five immutable maps from primary key to row (`Schema.Store`). Every handler is a pure function from a store and a request to a response and a new store. Failures are `Error(status, message)` responses, not preconditions.

Modules, one per source file:

| module | models |
|---|---|
| `Schema` (schema.dfy) | db/schema.ts |
| `Routes` (routes.dfy) | server/routes.ts |
| `BookingModal` (booking_modal.dfy) | client/src/components/BookingModal.tsx |
| `SeatSelector` (seat_selector.dfy) | client/src/components/SeatSelector.tsx |
| `ShowtimeSelector` (showtime_selector.dfy) | client/src/components/ShowtimeSelector.tsx |
| `HomePage` (home_page.dfy) | client/src/pages/HomePage.tsx |
| `RequestLog` (request_log.dfy) | server/index.ts (logging middleware) |
| `Wrappers`, `Seqs` | `Option`; `filter`, `new Set` and subsequence facts |

Assumptions and behaviour worth knowing:

- The availability query's `seats.id.in(seatIds)` is modelled as set membership of the seat's id in `seatIds`. This is an assumption: it is not drizzle's usual `inArray` helper.
- A booked seat gets 400. An empty or repeated `seatIds` is not rejected up front. With no seat, the insert puts NULL into `seat_id` and fails, so the answer is 500. A repeated id is counted twice in the total.
- The handler reads availability before it opens its transaction. The model treats the whole handler as one atomic step (see the module comment of `Routes`).
- Errors thrown by the database are the `Fault` parameter, which names the query that throws. The insert itself also fails, always with 500 and nothing written, when:
  - `seatIds` is empty;
  - a foreign key on `seat_id` or `user_id` does not resolve;
  - `price * seatIds.length` does not fit the 32-bit `total_amount` column.
- `bookings.id` comes from an identity sequence. The model keeps it as `Store.bookingSeq`, the last value issued.
- Showtime dates are the uninterpreted parameter `dateKey`. The random poster choice is the parameter `pick`. The clock is the parameter `now`.

## Model

| member | source | states |
|---|---|---|
| `Schema.NewSeat` | db/schema.ts:34 | A seat inserted without `isBooked` gets the column default `false`, so it reads as not booked. `Routes.NewSeatsNeverConflict` and `Routes.FirstSale` use it. |
| `Schema.InsertUser` | db/schema.ts:7 | The unique constraint on `username`: the insert is refused exactly when the id or the username is taken. Otherwise it adds that one row and keeps all others. |
| `Schema.InsertUserKeepsUsernamesUnique` | db/schema.ts:7 | An accepted insert keeps usernames unique. |
| `Routes.CreateBooking` | server/routes.ts:58-121 | No user: 401 and nothing changes. 400 exactly when a requested id names a booked seat of the requested showtime and the availability query did not throw; this comes before the showtime lookup, so it wins over 404. 404 exactly when no query threw, there is no conflict and the showtime is missing. 500 exactly when the availability query throws, or, with no conflict, the showtime query throws, or, with the showtime present, the transaction throws or the database refuses the row (no seat, an unresolved `seat_id` or `user_id`, a total outside 32 bits). Every error leaves every table unchanged. On 200, exactly one booking is written: the request's user and showtime, `seatIds[0]`, total `price * |seatIds|` with duplicates counted, status "confirmed". Every existing seat whose id is requested is flagged booked, whatever its showtime. Nothing else changes. A request that passes every check succeeds. |
| `Routes.SeatConflict` | server/routes.ts:67-79 | The availability query finds a booked seat exactly when some requested id names an existing, booked seat of the requested showtime. Ids with no row and seats of other showtimes never conflict. |
| `Routes.NewSeatsNeverConflict` | db/schema.ts:34 | Seats that all still carry the `is_booked` default never give a conflict, whatever the request. |
| `Routes.LookupAndCommit` | server/routes.ts:81-117 | After the availability check: 404 exactly when the showtime query did not throw and the showtime is missing. 500 exactly when that query throws, or the showtime exists and the transaction throws or the row is refused. Every error changes nothing. A request whose showtime exists, with no throw and a row the database accepts, gets 200. A 200 writes the booking as requested and flags the requested seats. |
| `Routes.MarkBooked` | server/routes.ts:107-114 | The per-id updates, applied one after another, flag exactly the existing seats whose id is requested. Other rows and fields are untouched, and ids with no row add nothing. |
| `Routes.CreateBookingPreservesWellFormed` | server/routes.ts:95-104 | A successful booking keeps every schema constraint: keys, foreign keys, 32-bit totals, identity. Its id was unused, so the bookings table grows by exactly one row. |
| `Routes.RebookingSameShowtimeConflicts` | server/routes.ts:67-114 | After a successful booking, a later request that names one of its seats under that seat's own showtime gets 400 (unless the availability query itself throws). |
| `Routes.ConflictScopedToShowtime` | server/routes.ts:67-79 | The availability check gives the same answer on the requested showtime's own seats as on the whole table. Requested ids of other showtimes are ignored. |
| `Routes.ShowtimesOfMovie` | server/routes.ts:32-42 | A query that does not throw answers 200 with exactly the showtimes whose `movieId` is the key, unchanged. A failing query gives 500 "Failed to fetch showtimes". |
| `Routes.SeatsOfShowtime` | server/routes.ts:45-55 | A query that does not throw answers 200 with exactly the seats whose `showtimeId` is the key, unchanged. A failing query gives 500 "Failed to fetch seats". |
| `Routes.BookingsOfUser` | server/routes.ts:124-138 | No user: 401. With a user, a query that does not throw answers 200 with exactly the bookings whose `userId` is the user's id. A failing query gives 500 "Failed to fetch bookings". |
| `Routes.SeatListingsPartition` | server/routes.ts:45-55 | In a well-formed database every seat is listed under its own showtime and under no other. |
| `Routes.ReadAfterBooking` | server/routes.ts:44-55 | After a successful booking, the showtime's seat listing has the same seats. Each requested one now reads as booked and the rest are unchanged. The user's booking listing contains the new booking. |
| `Routes.ListMovies` | server/routes.ts:12-29 | A failing query gives 500 "Failed to fetch movies". Otherwise 200 with every movie. A non-empty `posterUrl` is kept, an empty one is replaced by one of the four stock URLs, and no other field changes. |
| `Routes.FirstSale` | server/routes.ts:58-117 | In a small cinema whose seat 10 of showtime 2 is fresh, buying seat 10 under showtime 2 gets 200. It writes booking 1 and flags seat 10 as booked. |
| `Routes.ForeignSeatSoldTwice` | server/routes.ts:67-114 | Counterexample, as written: after that first sale, a request for showtime 1 naming seat 10 also gets 200. The bookings table then holds two different bookings of seat 10. |
| `Routes.CreateBookingScoped` | server/routes.ts:58-121 | Corrected handler. It answers 400 exactly when a user is present, the availability query does not throw, and some requested id is missing, of another showtime, or booked. Every other answer, including 401 without a user, 500 on a thrown query and every 200, is the original handler's, with the same rows written. So the fix only adds refusals, and only on requests naming missing, foreign or booked seats. |
| `Routes.ScopedNeverSellsTwice` | server/routes.ts:67-114 | With the corrected check, after a successful booking every later request naming any of its seats, under any showtime, gets 400 (unless the availability query itself throws). |
| `BookingModal.ToggleSeat` | client/src/components/BookingModal.tsx:76-82 | A seat whose id is not selected is appended at the end. Otherwise no entry with that id remains. Every other entry is kept as often as it occurred, in the original order, since the result is a subsequence with the same multiplicities. |
| `BookingModal.ToggleTwiceRestores` | client/src/components/BookingModal.tsx:76-81 | Toggling an unselected seat twice restores the original selection. |
| `BookingModal.ToggleKeepsIdsDistinct` | client/src/components/BookingModal.tsx:76-81 | A selection without repeated ids has none after a toggle. |
| `BookingModal.ToggleFlipsSelection` | client/src/components/BookingModal.tsx:76-81 | A toggle flips whether some selected seat has the toggled seat's id. That is the seat map's "selected" flag. |
| `BookingModal.Next` | client/src/components/BookingModal.tsx:99-146 | In step 1 a picked showtime becomes the selection, and nothing else changes the selected showtime (Back keeps it). In step 2 with a showtime chosen, a click on a free seat toggles it (`handleSeatToggle`). Only such a click changes the selected seats, so picking a showtime keeps them. Continue moves step 1 to 2 only with a showtime selected. Back decrements the step. Only Back and Continue change the step. Confirm starts a request only when enabled (step 2, a seat selected, none pending) and leaves the seats alone. A settled request clears `pending`. Only Confirm and settling change it. |
| `BookingModal.NextStaysConsistent` | client/src/components/BookingModal.tsx:126-141 | Each event keeps three facts: the step is 1 or 2, step 2 has a showtime selected, no seat id is selected twice. |
| `BookingModal.RunStaysConsistent` | client/src/components/BookingModal.tsx:126-141 | Those facts hold after any sequence of events. |
| `BookingModal.ReachableConsistent` | client/src/components/BookingModal.tsx:126-146 | From the initial dialog, whenever Confirm is enabled a showtime is selected. The request it sends names no seat twice. |
| `BookingModal.Payload` | client/src/components/BookingModal.tsx:52-55 | The request names the selected showtime and the selected seats' ids, in selection order. |
| `BookingModal.SeatsSurviveShowtimeChange` | client/src/components/BookingModal.tsx:99-103 | Going back and picking another showtime keeps the seats chosen before. The next request sends them under the new showtime's id. |
| `BookingModal.PickHighlightsShowtime` | client/src/components/ShowtimeSelector.tsx:39 | After a showtime is picked, a button is highlighted exactly when its id is the picked one's. |
| `SeatSelector.LessIrreflexive` | client/src/components/SeatSelector.tsx:12 | The default sort order on strings (code units, prefix first) is irreflexive. |
| `SeatSelector.LessTransitive` | client/src/components/SeatSelector.tsx:12 | That order is transitive. |
| `SeatSelector.LessTotal` | client/src/components/SeatSelector.tsx:12 | That order relates any two different strings. |
| `SeatSelector.LessAsymmetric` | client/src/components/SeatSelector.tsx:12 | No two strings are each below the other. |
| `SeatSelector.SortedDistinct` | client/src/components/SeatSelector.tsx:12 | De-duplicating and sorting a list of labels gives a strictly ascending list with exactly the same labels. |
| `SeatSelector.Rows` | client/src/components/SeatSelector.tsx:12 | The row labels are strictly ascending. A label is listed exactly when some seat has it. |
| `SeatSelector.AscendingUnique` | client/src/components/SeatSelector.tsx:12 | Two strictly ascending lists with the same elements are equal. Sorting a set of labels has one result. |
| `SeatSelector.RowsIsSortedSet` | client/src/components/SeatSelector.tsx:12 | Any strictly ascending arrangement of the de-duplicated labels, which is what the sort returns, equals `Rows`. |
| `SeatSelector.RowsListEachRowOnce` | client/src/components/SeatSelector.tsx:12 | Every seat's row label occurs in `rows`, and no label occurs twice. |
| `SeatSelector.MaxNumber` | client/src/components/SeatSelector.tsx:13 | The maximum of the seat numbers: at least every number and equal to one of them. It is absent (`-Infinity`) exactly for no seats. |
| `SeatSelector.SeatsPerRow` | client/src/components/SeatSelector.tsx:13 | The row width covers every seat numbered 1 or more. A positive width is some seat's number. |
| `SeatSelector.FindSeat` | client/src/components/SeatSelector.tsx:30 | Returns the first seat with the given row and number, or nothing when there is none. |
| `SeatSelector.CellAt` | client/src/components/SeatSelector.tsx:30-38 | A cell is a placeholder exactly when no seat has that row and number. A button shows a seat of that row and number, disabled exactly when it is booked, selected exactly when a selected seat has its id. |
| `SeatSelector.Layout` | client/src/components/SeatSelector.tsx:24-50 | One line per row label, in order, each `seatsPerRow` cells wide. |
| `SeatSelector.ButtonsShowFirstSeat` | client/src/components/SeatSelector.tsx:29-41 | A button in row r, column c shows the first seat of row r numbered c+1. It is disabled iff that seat's `isBooked` is true (NULL counts as false). It is selected iff a selected seat has its id. A placeholder means no such seat exists. |
| `SeatSelector.EveryFirstSeatShown` | client/src/components/SeatSelector.tsx:29-31 | Every seat numbered 1 or more that comes first for its row and number has a button. |
| `SeatSelector.HiddenSeats` | client/src/components/SeatSelector.tsx:29-31 | A seat numbered below 1 never gets a button. A seat that repeats an earlier seat's row and number is shadowed by it: it gets no button unless an identical copy of it is the first at that position. |
| `ShowtimeSelector.GroupByDate` | client/src/components/ShowtimeSelector.tsx:17-22 | The `reduce` gives at most one group per showtime, and no group exactly when there are no showtimes. `GroupByDateIsReference` characterises it exactly. |
| `ShowtimeSelector.FindGroup` | client/src/components/ShowtimeSelector.tsx:19 | Finds the group for a date, or reports that there is none. |
| `ShowtimeSelector.GroupByDateIsReference` | client/src/components/ShowtimeSelector.tsx:17-22 | The `reduce` yields one group per distinct date, in order of first appearance. Each group holds that date's showtimes in input order. |
| `ShowtimeSelector.GroupKeysAreDates` | client/src/components/ShowtimeSelector.tsx:17-26 | The group keys are exactly the distinct dates of the showtimes, with no repeats. |
| `ShowtimeSelector.GroupKeysInDateOrder` | client/src/components/ShowtimeSelector.tsx:17-26 | Of two groups, the earlier one's date first appears among the showtimes before the later one's. |
| `ShowtimeSelector.GroupMembersShareDate` | client/src/components/ShowtimeSelector.tsx:17-22 | Every group is non-empty, all its members carry its date, and they keep their input order. |
| `ShowtimeSelector.EachShowtimeInOneGroup` | client/src/components/ShowtimeSelector.tsx:17-22 | Every showtime is in exactly one group, the one for its date. |
| `ShowtimeSelector.AddShowtimeMembers` | client/src/components/ShowtimeSelector.tsx:19-21 | One step of the `reduce` adds exactly the new showtime to the grouped showtimes. |
| `ShowtimeSelector.GroupingIsPermutation` | client/src/components/ShowtimeSelector.tsx:17-22 | Concatenating the groups gives a permutation of the input. |
| `HomePage.Lower` | client/src/pages/HomePage.tsx:25 | Lower-casing keeps the length and maps each letter A-Z to its lower-case form, leaving other characters alone. |
| `HomePage.Includes` | client/src/pages/HomePage.tsx:25 | The empty term is found in every title, a term is found only in a title at least as long, and a title contains itself. |
| `HomePage.IncludesIffOccurs` | client/src/pages/HomePage.tsx:25 | `includes` holds exactly when the term occurs at some position of the title. |
| `HomePage.FilterMovies` | client/src/pages/HomePage.tsx:24-26 | Undefined movies give undefined. Otherwise the result is no longer than the input. |
| `HomePage.FilterMoviesSpec` | client/src/pages/HomePage.tsx:24-26 | The filtered list is a subsequence of the movies. A movie is kept iff its lower-cased title contains the lower-cased term. |
| `HomePage.EmptySearchKeepsAll` | client/src/pages/HomePage.tsx:25 | An empty search term keeps every movie. |
| `HomePage.FilterMoviesIdempotent` | client/src/pages/HomePage.tsx:24-26 | Filtering again with the same term changes nothing. |
| `HomePage.SearchIgnoresCase` | client/src/pages/HomePage.tsx:25 | Searching for the lower-cased term gives the same list as the term itself. |
| `HomePage.PageNext` | client/src/pages/HomePage.tsx:71-84 | Booking a movie selects it. Closing the dialog resets the selection. Typing changes only the search term. |
| `HomePage.TypingOnly` | client/src/pages/HomePage.tsx:48 | Any run of typing keeps the selected movie and leaves the last typed term as the search term. |
| `HomePage.InitialPageHasNoDialog` | client/src/pages/HomePage.tsx:12-13 | The page starts with an empty search and no dialog. Typing alone never opens the dialog and leaves the last typed term in the search box. |
| `HomePage.ClosedStaysClosed` | client/src/pages/HomePage.tsx:79-84 | Once the dialog is closed it is not shown, and typing in the search box does not reopen it. |
| `RequestLog.Truncate` | server/index.ts:60-62 | A line of at most 80 characters is unchanged. A longer one becomes its first 79 characters and "…", exactly 80 long. |
| `RequestLog.TruncateIdempotent` | server/index.ts:60-62 | Shortening an already-shortened line changes nothing. |
| `RequestLog.LogLine` | server/index.ts:54-65 | A line is produced exactly for paths starting with "/api", and it is at most 80 characters long. |
| `RequestLog.LoggedLineContents` | server/index.ts:55-62 | The raw line starts with method and path. It ends with " :: " and the body exactly when a body was captured. It is logged whole when it fits, else as its first 79 characters and "…". |

## Findings

| source | as written | input that shows it | evidently intended | confidence | as-written member | corrected member |
|---|---|---|---|---|---|---|
| server/routes.ts:67-114 | The availability check only looks at seats of the requested showtime. The update flags every requested id, whatever its showtime. The booking stores `seatIds[0]`. | Seat 10 belongs to showtime 2. It is first sold with `{showtimeId: 2, seatIds: [10]}`. A second request `{showtimeId: 1, seatIds: [10]}` then also gets 200, and the bookings table holds two bookings of seat 10. The client sends such a request after Back and a different showtime, because `selectedSeats` is not cleared (`BookingModal.SeatsSurviveShowtimeChange`). | Refuse the request unless every requested id is an unbooked seat of the requested showtime. | medium; not executed | `Routes.ForeignSeatSoldTwice` | `Routes.CreateBookingScoped` (with `Routes.ScopedNeverSellsTwice`) |

`Routes.CreateBooking` stays the model of the handler as written. The other lemmas about the server describe that handler.

## Left out

- Concurrency: the availability check runs outside the transaction, so two concurrent requests can both pass it. Interleavings are not modelled; each request is one atomic step.
- Commit failure: the handler replies inside the transaction callback, before the commit. A commit that then fails sends 200 with nothing written. The model's `TransactionFails` covers only a throw inside the callback, which answers 500.
- Database I/O, connection setup and retry, server startup, static serving and process exit are not modelled. A thrown query is the `Fault` parameter, or the `fault` flag of a read endpoint.
- `Math.random`, the clock and date formatting are not modelled. They appear as the parameters `pick`, `now` and `dateKey`.
- Authentication and sessions: the request's user is an `Option<User>` parameter. The auth pages are not modelled.
- React rendering, toasts, loading spinners, react-query caching and the cache invalidation in the booking hook are not modelled. The navbar, movie cards and i18n are out too.
- Type coercion and path parsing are not modelled: `parseInt` of path parameters, and JSON bodies whose `showtimeId` or `seatIds` are not integers. Keys are `int`.
- Request ids outside the 32-bit range make the real queries fail. The model treats such ids like any unknown id.
- `bookings.id` sequence: a rolled-back insert may advance the identity sequence. The model leaves `bookingSeq` unchanged on failure, and does not model the sequence running out.
- `ShowtimeSelector.GroupByDate`: groups are listed in order of first appearance. `Object.entries` keeps that order only for keys that do not look like integers. The model assumes formatted dates (`yyyy-MM-dd`) never do; `dateKey` itself is unconstrained.
- Result order: the read endpoints return maps, so the database's row order is not modelled.
- `HomePage.Lower`: only the letters A-Z are folded.
- `HomePage.FilterMovies`: case folding is ASCII only. Full Unicode `toLowerCase`, which can change a string's length, is not modelled.
- `SeatSelector.Rows`: characters are compared as code points. This matches JavaScript's code-unit order inside the Basic Multilingual Plane only.
- A captured body that is falsy in JavaScript (`null`, `0`, `false`, an empty string) adds no " :: " suffix. The model's `body` is `None` exactly when nothing would be appended.
- `RequestLog.Truncate`: a character stands for one UTF-16 code unit. A character outside the Basic Multilingual Plane, which is two units in JavaScript, is not distinguished. `JSON.stringify` is the body string given as a parameter. `NumberText` renders integers only, not exponent forms.
- Request body parsing, URL-encoded bodies and the error-handling middleware are not modelled.

=== FILE: booking_modal.dfy ===
/** The state of the booking dialog (client/src/components/BookingModal.tsx): a two-step
    wizard (1: pick a showtime, 2: pick seats), the current selections, and whether the
    booking request is in flight. Data fetching and rendering are not modelled. */
module BookingModal {
  import opened Wrappers
  import opened Schema
  import Seqs
  import Routes
  import ShowtimeSelector

  datatype ModalState = ModalState(
    step: int,
    selectedShowtime: Option<Showtime>,
    selectedSeats: seq<Seat>,
    pending: bool)        // the booking mutation's `isPending`

  /** The dialog as it is mounted: step 1, nothing selected, no request pending. */
  const Initial: ModalState := ModalState(1, None, [], false)

  /** `handleSeatToggle`: a seat whose id is not selected is appended; otherwise every
      selected seat with that id is dropped, and every other entry is kept, as often as it
      occurs and in its order. */
  function ToggleSeat(selected: seq<Seat>, seat: Seat): (r: seq<Seat>)
    ensures !HasSeatId(selected, seat.id) ==> r == selected + [seat]
    ensures HasSeatId(selected, seat.id) ==>
              && !HasSeatId(r, seat.id)
              && Seqs.IsSubsequence(r, selected)
              && (forall i :: 0 <= i < |selected| && selected[i].id != seat.id ==> selected[i] in r)
              && forall t: Seat :: multiset(r)[t] == if t.id == seat.id then 0 else multiset(selected)[t]
  {
    if HasSeatId(selected, seat.id) then
      DropIdFacts(selected, seat.id);
      Seqs.Filter(selected, (s: Seat) => s.id != seat.id)
    else selected + [seat]
  }

  lemma DropIdFacts(selected: seq<Seat>, id: int)
    ensures var r := Seqs.Filter(selected, (s: Seat) => s.id != id);
            && !HasSeatId(r, id)
            && Seqs.IsSubsequence(r, selected)
            && (forall i :: 0 <= i < |selected| && selected[i].id != id ==> selected[i] in r)
            && forall t: Seat :: multiset(r)[t] == if t.id == id then 0 else multiset(selected)[t]
  {
    var p := (s: Seat) => s.id != id;
    forall t: Seat ensures multiset(Seqs.Filter(selected, p))[t] == if t.id == id then 0 else multiset(selected)[t] {
      Seqs.FilterCount(selected, p, t);
    }
    Seqs.FilterIsSubsequence(selected, p);
    Seqs.FilterAll(selected, p);
    forall i | 0 <= i < |selected| && selected[i].id != id ensures selected[i] in Seqs.Filter(selected, p) {
      Seqs.FilterMember(selected, p, selected[i]);
    }
  }

  /** Toggling a seat that was not selected, then toggling it again, restores the selection. */
  lemma ToggleTwiceRestores(selected: seq<Seat>, seat: Seat)
    requires !HasSeatId(selected, seat.id)
    ensures ToggleSeat(ToggleSeat(selected, seat), seat) == selected
  {
    var once := selected + [seat];
    assert once[|selected|].id == seat.id;
    Seqs.FilterAppend(selected, [seat], (s: Seat) => s.id != seat.id);
    Seqs.FilterKeepsAll(selected, (s: Seat) => s.id != seat.id);
  }

  /** No seat id is selected twice. */
  predicate DistinctIds(selected: seq<Seat>) {
    forall i, j :: 0 <= i < j < |selected| ==> selected[i].id != selected[j].id
  }

  lemma ToggleKeepsIdsDistinct(selected: seq<Seat>, seat: Seat)
    requires DistinctIds(selected)
    ensures DistinctIds(ToggleSeat(selected, seat))
  {
    if HasSeatId(selected, seat.id) {
      FilterKeepsIdsDistinct(selected, seat.id);
    }
  }

  lemma {:induction false} FilterKeepsIdsDistinct(selected: seq<Seat>, id: int)
    requires DistinctIds(selected)
    ensures DistinctIds(Seqs.Filter(selected, (s: Seat) => s.id != id))
    decreases |selected|
  {
    var p := (s: Seat) => s.id != id;
    if |selected| > 0 {
      var tail := selected[1..];
      assert DistinctIds(tail) by {
        forall i, j | 0 <= i < j < |tail| ensures tail[i].id != tail[j].id {
          assert tail[i] == selected[i + 1] && tail[j] == selected[j + 1];
        }
      }
      FilterKeepsIdsDistinct(tail, id);
      var rest := Seqs.Filter(tail, p);
      if p(selected[0]) {
        var r := [selected[0]] + rest;
        assert Seqs.Filter(selected, p) == r;
        forall i, j | 0 <= i < j < |r| ensures r[i].id != r[j].id {
          if i == 0 {
            Seqs.FilterMember(tail, p, rest[j - 1]);
            assert r[j] == rest[j - 1] && rest[j - 1] in tail;
            var m :| 0 <= m < |tail| && tail[m] == rest[j - 1];
            assert tail[m] == selected[m + 1];
          } else {
            assert r[i] == rest[i - 1] && r[j] == rest[j - 1];
          }
        }
      } else {
        assert Seqs.Filter(selected, p) == rest;
      }
    }
  }

  /** A toggle flips whether the seat is selected, which is what the seat map's
      `selected` flag shows. */
  lemma ToggleFlipsSelection(selected: seq<Seat>, seat: Seat)
    ensures HasSeatId(ToggleSeat(selected, seat), seat.id) <==> !HasSeatId(selected, seat.id)
  {
    if !HasSeatId(selected, seat.id) {
      assert (selected + [seat])[|selected|] == seat;
    }
  }

  // ------------------------------------------------------------- the wizard

  /** The "Continue" button (step 1) is enabled once a showtime is selected. */
  predicate ContinueEnabled(s: ModalState) {
    s.step == 1 && s.selectedShowtime.Some?
  }

  /** The "Confirm Booking" button (step 2) is enabled when at least one seat is selected
      and no booking request is in flight. */
  predicate ConfirmEnabled(s: ModalState) {
    s.step == 2 && |s.selectedSeats| > 0 && !s.pending
  }

  /** The user's interactions with the dialog, and the end of the booking request. */
  datatype Event =
    | PickShowtime(showtime: Showtime)  // a showtime button (step 1)
    | ClickSeat(seat: Seat)             // a seat button (step 2); disabled when booked
    | Continue
    | Back
    | Confirm
    | RequestSettled                    // the mutation resolved or failed

  /** The dialog's response to one event. Buttons that are not rendered or are disabled
      do nothing. */
  function Next(s: ModalState, e: Event): (s': ModalState)
    ensures e.Confirm? ==> (s'.pending <==> ConfirmEnabled(s) || s.pending) && s'.selectedSeats == s.selectedSeats
    ensures !e.Continue? && !e.Back? ==> s'.step == s.step
    ensures e.Continue? && s.step == 1 ==> (s'.step == 2 <==> s.selectedShowtime.Some?)
    ensures e.Back? && s.step > 1 ==> s'.step == s.step - 1
    // a click on a free seat in step 2 toggles it; a pick in step 1 selects the showtime
    ensures e.ClickSeat? && s.step == 2 && s.selectedShowtime.Some? && !IsBooked(e.seat) ==>
              s'.selectedSeats == ToggleSeat(s.selectedSeats, e.seat)
    ensures e.PickShowtime? && s.step == 1 ==> s'.selectedShowtime == Some(e.showtime)
    // nothing else changes the selected seats: picking a showtime keeps them
    ensures s'.selectedSeats != s.selectedSeats ==>
              e.ClickSeat? && s.step == 2 && s.selectedShowtime.Some? && !IsBooked(e.seat)
    // only a pick in step 1 changes the selected showtime; Back keeps it
    ensures !(e.PickShowtime? && s.step == 1) ==> s'.selectedShowtime == s.selectedShowtime
    // a settled request re-enables Confirm; only Confirm and settling touch `pending`
    ensures e.RequestSettled? ==> !s'.pending
    ensures !e.Confirm? && !e.RequestSettled? ==> s'.pending == s.pending
  {
    match e
    case PickShowtime(st) =>
      if s.step == 1 then s.(selectedShowtime := Some(st)) else s
    case ClickSeat(seat) =>
      if s.step == 2 && s.selectedShowtime.Some? && !IsBooked(seat)
      then s.(selectedSeats := ToggleSeat(s.selectedSeats, seat)) else s
    case Continue =>
      if ContinueEnabled(s) then s.(step := 2) else s
    case Back =>
      if s.step > 1 then s.(step := s.step - 1) else s
    case Confirm =>
      if ConfirmEnabled(s) then s.(pending := true) else s
    case RequestSettled =>
      s.(pending := false)
  }

  /** The state after a sequence of events. */
  function Run(s: ModalState, events: seq<Event>): ModalState
    decreases |events|
  {
    if |events| == 0 then s else Run(Next(s, events[0]), events[1..])
  }

  /** The step is 1 or 2, step 2 is only reached with a showtime selected, and no seat id
      is selected twice. */
  predicate Consistent(s: ModalState) {
    && s.step in {1, 2}
    && (s.step == 2 ==> s.selectedShowtime.Some?)
    && DistinctIds(s.selectedSeats)
  }

  lemma NextStaysConsistent(s: ModalState, e: Event)
    requires Consistent(s)
    ensures Consistent(Next(s, e))
  {
    if e.ClickSeat? {
      ToggleKeepsIdsDistinct(s.selectedSeats, e.seat);
    }
  }

  lemma {:induction false} RunStaysConsistent(s: ModalState, events: seq<Event>)
    requires Consistent(s)
    ensures Consistent(Run(s, events))
    decreases |events|
  {
    if |events| > 0 {
      NextStaysConsistent(s, events[0]);
      RunStaysConsistent(Next(s, events[0]), events[1..]);
    }
  }

  /** Every state the dialog can reach is consistent; in particular, whenever "Confirm
      Booking" is enabled the request can be built, and it names no seat twice. */
  lemma ReachableConsistent(events: seq<Event>)
    ensures Consistent(Run(Initial, events))
    ensures var s := Run(Initial, events);
            ConfirmEnabled(s) ==> s.selectedShowtime.Some? && Seqs.NoDuplicates(Payload(s).seatIds)
  {
    RunStaysConsistent(Initial, events);
  }

  /** The body of the POST request: the selected showtime's id and the selected seats'
      ids, in selection order. */
  function Payload(s: ModalState): (req: Routes.BookingRequest)
    requires s.selectedShowtime.Some?
    ensures req.showtimeId == s.selectedShowtime.value.id
    ensures |req.seatIds| == |s.selectedSeats|
    ensures forall i :: 0 <= i < |req.seatIds| ==> req.seatIds[i] == s.selectedSeats[i].id
  {
    Routes.BookingRequest(s.selectedShowtime.value.id,
                          seq(|s.selectedSeats|, i requires 0 <= i < |s.selectedSeats| => s.selectedSeats[i].id))
  }

  /** Going back and picking another showtime keeps the seats chosen for the first one,
      and the next request sends them under the new showtime's id. */
  lemma SeatsSurviveShowtimeChange(s: ModalState, other: Showtime)
    requires s.step == 2 && s.selectedShowtime.Some?
    ensures var s' := Run(s, [Back, PickShowtime(other), Continue]);
            && s'.step == 2
            && s'.selectedShowtime == Some(other)
            && s'.selectedSeats == s.selectedSeats
            && Payload(s').showtimeId == other.id
            && Payload(s').seatIds == Payload(s).seatIds
  {
    var s1 := Next(s, Back);
    var s2 := Next(s1, PickShowtime(other));
    var s3 := Next(s2, Continue);
    var events := [Back, PickShowtime(other), Continue];
    assert events[1..] == [PickShowtime(other), Continue];
    assert events[1..][1..] == [Continue];
    assert Run(s2, [Continue]) == Run(s3, []) == s3;
    assert Run(s, events) == Run(s1, events[1..]) == Run(s2, [Continue]);
  }

  /** Picking a showtime highlights exactly the buttons carrying its id. */
  lemma PickHighlightsShowtime(s: ModalState, picked: Showtime, other: Showtime)
    requires s.step == 1
    ensures ShowtimeSelector.Highlighted(Next(s, PickShowtime(picked)).selectedShowtime, other)
            <==> other.id == picked.id
  {
  }
}

=== FILE: home_page.dfy ===
/** The home page (client/src/pages/HomePage.tsx): the search box filtering the movie
    list, and the booking dialog opened for one movie. Case folding is ASCII only. */
module HomePage {
  import opened Wrappers
  import opened Schema
  import Seqs

  function LowerChar(c: char): char {
    if 'A' <= c <= 'Z' then (c as int + 32) as char else c
  }

  /** `toLowerCase`, restricted to ASCII letters. */
  function Lower(s: string): (r: string)
    ensures |r| == |s| && forall i :: 0 <= i < |s| ==> r[i] == LowerChar(s[i])
  {
    seq(|s|, i requires 0 <= i < |s| => LowerChar(s[i]))
  }

  lemma LowerIdempotent(s: string)
    ensures Lower(Lower(s)) == Lower(s)
  {
  }

  /** `needle` occurs in `hay` starting at index `i`. */
  predicate OccursAt(hay: string, needle: string, i: int) {
    0 <= i && i + |needle| <= |hay| && hay[i..i + |needle|] == needle
  }

  /** `hay.includes(needle)`: a scan for the first position where `needle` starts. */
  function Includes(hay: string, needle: string): (r: bool)
    ensures |needle| == 0 ==> r
    ensures r ==> |needle| <= |hay|
    ensures needle == hay ==> r
    decreases |hay|
  {
    if |needle| <= |hay| && hay[..|needle|] == needle then true
    else if |hay| == 0 then false
    else Includes(hay[1..], needle)
  }

  /** The scan finds `needle` exactly when it occurs somewhere in `hay`. */
  lemma {:induction false} IncludesIffOccurs(hay: string, needle: string)
    ensures Includes(hay, needle) <==> exists i :: OccursAt(hay, needle, i)
    decreases |hay|
  {
    if |needle| <= |hay| && hay[..|needle|] == needle {
      assert OccursAt(hay, needle, 0);
    } else if |hay| == 0 {
    } else {
      IncludesIffOccurs(hay[1..], needle);
      if exists i :: OccursAt(hay[1..], needle, i) {
        var i :| OccursAt(hay[1..], needle, i);
        assert hay[1..][i..i + |needle|] == hay[i + 1..i + 1 + |needle|];
        assert OccursAt(hay, needle, i + 1);
      }
      if exists i :: OccursAt(hay, needle, i) {
        var i :| OccursAt(hay, needle, i);
        if i > 0 {
          assert hay[1..][i - 1..i - 1 + |needle|] == hay[i..i + |needle|];
          assert OccursAt(hay[1..], needle, i - 1);
        }
      }
    }
  }

  /** The search predicate: the lower-cased title contains the lower-cased term. */
  function TitleMatches(term: string): Movie -> bool {
    (m: Movie) => Includes(Lower(m.title), Lower(term))
  }

  /** `filteredMovies`: undefined while the movies are not loaded. */
  function FilterMovies(movies: Option<seq<Movie>>, term: string): (r: Option<seq<Movie>>)
    ensures r.None? <==> movies.None?
    ensures r.Some? ==> |r.value| <= |movies.value|
  {
    match movies
    case None => None
    case Some(ms) => Some(Seqs.Filter(ms, TitleMatches(term)))
  }

  /** The filtered list keeps the movies' order, and keeps a movie exactly when its title
      contains the term, ignoring (ASCII) case. */
  lemma FilterMoviesSpec(ms: seq<Movie>, term: string, m: Movie)
    ensures Seqs.IsSubsequence(FilterMovies(Some(ms), term).value, ms)
    ensures m in FilterMovies(Some(ms), term).value <==>
              m in ms && exists i :: OccursAt(Lower(m.title), Lower(term), i)
  {
    Seqs.FilterIsSubsequence(ms, TitleMatches(term));
    Seqs.FilterMember(ms, TitleMatches(term), m);
    IncludesIffOccurs(Lower(m.title), Lower(term));
  }

  /** An empty search keeps every movie. */
  lemma EmptySearchKeepsAll(ms: seq<Movie>)
    ensures FilterMovies(Some(ms), "") == Some(ms)
  {
    forall i | 0 <= i < |ms| ensures TitleMatches("")(ms[i]) {
      assert Lower(ms[i].title)[..0] == Lower("");
    }
    Seqs.FilterKeepsAll(ms, TitleMatches(""));
  }

  /** Filtering the filtered list again with the same term changes nothing. */
  lemma FilterMoviesIdempotent(movies: Option<seq<Movie>>, term: string)
    ensures FilterMovies(FilterMovies(movies, term), term) == FilterMovies(movies, term)
  {
    if movies.Some? {
      Seqs.FilterIdempotent(movies.value, TitleMatches(term));
    }
  }

  /** The search ignores the case of the term. */
  lemma SearchIgnoresCase(movies: Option<seq<Movie>>, term: string)
    ensures FilterMovies(movies, Lower(term)) == FilterMovies(movies, term)
  {
    LowerIdempotent(term);
    if movies.Some? {
      Seqs.FilterCongruent(movies.value, TitleMatches(Lower(term)), TitleMatches(term));
    }
  }

  // ------------------------------------------------------------ the page state

  datatype PageState = PageState(searchTerm: string, selectedMovie: Option<Movie>)

  const InitialPage: PageState := PageState("", None)

  datatype PageEvent =
    | Type(term: string)        // the search box changes
    | BookMovie(movie: Movie)   // a movie card's "book" button
    | CloseDialog               // the dialog's `onClose`: cancel, dismiss, or a confirmed booking

  function PageNext(s: PageState, e: PageEvent): (s': PageState)
    ensures e.BookMovie? ==> s'.selectedMovie == Some(e.movie)
    ensures e.CloseDialog? ==> s'.selectedMovie == None
    ensures e.Type? ==> s'.selectedMovie == s.selectedMovie && s'.searchTerm == e.term
    ensures !e.Type? ==> s'.searchTerm == s.searchTerm
  {
    match e
    case Type(t) => s.(searchTerm := t)
    case BookMovie(m) => s.(selectedMovie := Some(m))
    case CloseDialog => s.(selectedMovie := None)
  }

  /** The booking dialog is rendered exactly when a movie is selected. */
  predicate DialogShown(s: PageState) {
    s.selectedMovie.Some?
  }

  function PageRun(s: PageState, events: seq<PageEvent>): PageState
    decreases |events|
  {
    if |events| == 0 then s else PageRun(PageNext(s, events[0]), events[1..])
  }

  /** Typing only changes the search term: the selection stays, and the term is the last
      one typed. */
  lemma {:induction false} TypingOnly(s: PageState, typing: seq<PageEvent>)
    requires forall i :: 0 <= i < |typing| ==> typing[i].Type?
    ensures PageRun(s, typing).selectedMovie == s.selectedMovie
    ensures PageRun(s, typing).searchTerm == if |typing| == 0 then s.searchTerm else typing[|typing| - 1].term
    decreases |typing|
  {
    if |typing| > 0 {
      TypingOnly(PageNext(s, typing[0]), typing[1..]);
      if |typing| > 1 {
        assert typing[1..][|typing[1..]| - 1] == typing[|typing| - 1];
      }
    }
  }

  /** The page opens with an empty search and no dialog; typing alone never opens it and
      leaves the last typed term in the search box. */
  lemma InitialPageHasNoDialog(typing: seq<PageEvent>)
    requires forall i :: 0 <= i < |typing| ==> typing[i].Type?
    ensures !DialogShown(PageRun(InitialPage, typing))
    ensures PageRun(InitialPage, typing).searchTerm == if |typing| == 0 then "" else typing[|typing| - 1].term
  {
  }

  /** Whatever happened before, closing the dialog hides it, and it stays hidden while the
      user only types into the search box. */
  lemma {:induction false} ClosedStaysClosed(s: PageState, typing: seq<PageEvent>)
    requires forall i :: 0 <= i < |typing| ==> typing[i].Type?
    ensures !DialogShown(PageRun(PageNext(s, CloseDialog), typing))
    decreases |typing|
  {
    if |typing| > 0 {
      var s1 := PageNext(s, CloseDialog);
      var s2 := PageNext(s1, typing[0]);
      assert s2 == PageNext(s2, CloseDialog);
      ClosedStaysClosed(s2, typing[1..]);
    }
  }
}

=== FILE: request_log.dfy ===
/** The request-logging middleware of server/index.ts: once a response has finished, a
    request under `/api` is logged as one line of at most 80 characters. The clock, the
    JSON serialisation of the body and the console are parameters or left out. Strings
    count UTF-16 code units in JavaScript; here each character stands for one unit. */
module RequestLog {
  import opened Wrappers

  const MaxLineLength: nat := 80

  /** The horizontal ellipsis (U+2026) that ends a shortened line. */
  const Ellipsis: char := '\U{2026}'

  predicate StartsWith(s: string, prefix: string) {
    |prefix| <= |s| && s[..|prefix|] == prefix
  }

  function DigitChar(d: int): char
    requires 0 <= d < 10
  {
    "0123456789"[d]
  }

  /** The decimal digits of a natural number, without leading zeros. */
  function Digits(n: nat): (r: string)
    ensures |r| > 0
    ensures forall i :: 0 <= i < |r| ==> '0' <= r[i] <= '9'
    ensures |r| > 1 ==> r[0] != '0'
    decreases n
  {
    if n < 10 then [DigitChar(n)] else Digits(n / 10) + [DigitChar(n % 10)]
  }

  /** An integer as a template literal renders it. */
  function NumberText(n: int): string {
    if n < 0 then "-" + Digits(-n) else Digits(n)
  }

  /** `${req.method} ${path} ${res.statusCode} in ${duration}ms` */
  function Head(verb: string, path: string, status: int, durationMs: int): string {
    verb + " " + path + " " + (NumberText(status) + " in " + NumberText(durationMs) + "ms")
  }

  /** The suffix ` :: ` and the JSON text, present only when a body was captured. */
  function BodySuffix(body: Option<string>): string {
    match body
    case None => ""
    case Some(json) => " :: " + json
  }

  /** The line before shortening. */
  function RawLine(verb: string, path: string, status: int, durationMs: int, body: Option<string>): string {
    Head(verb, path, status, durationMs) + BodySuffix(body)
  }

  /** Shortening to the length limit: 79 characters and an ellipsis. */
  function Truncate(line: string): (r: string)
    ensures |r| <= MaxLineLength
    ensures |line| <= MaxLineLength ==> r == line
    ensures |line| > MaxLineLength ==>
              |r| == MaxLineLength && r[..MaxLineLength - 1] == line[..MaxLineLength - 1]
              && r[MaxLineLength - 1] == Ellipsis
  {
    if |line| > MaxLineLength then line[..MaxLineLength - 1] + [Ellipsis] else line
  }

  /** Shortening a line that is already short enough does nothing. */
  lemma TruncateIdempotent(line: string)
    ensures Truncate(Truncate(line)) == Truncate(line)
  {
  }

  /** The middleware's output for a finished response: nothing outside `/api`. */
  function LogLine(verb: string, path: string, status: int, durationMs: int, body: Option<string>): (r: Option<string>)
    ensures r.Some? <==> StartsWith(path, "/api")
    ensures r.Some? ==> |r.value| <= MaxLineLength
  {
    if StartsWith(path, "/api") then Some(Truncate(RawLine(verb, path, status, durationMs, body)))
    else None
  }

  /** What the logged line keeps of the request: when it fits, the whole line, ending with
      ` :: ` and the body exactly when a body was captured; otherwise the first 79
      characters of the line and the ellipsis. */
  lemma LoggedLineContents(verb: string, path: string, status: int, durationMs: int, body: Option<string>)
    requires StartsWith(path, "/api")
    ensures var raw := RawLine(verb, path, status, durationMs, body);
            var logged := LogLine(verb, path, status, durationMs, body).value;
            && StartsWith(raw, verb + " " + path + " ")
            && (body.Some? ==> raw == RawLine(verb, path, status, durationMs, None) + " :: " + body.value)
            && (body.None? ==> raw == Head(verb, path, status, durationMs))
            && (|raw| <= MaxLineLength ==> logged == raw)
            && (|raw| > MaxLineLength ==> StartsWith(logged, raw[..MaxLineLength - 1]) && logged[|logged| - 1] == Ellipsis)
  {
  }
}

=== FILE: routes.dfy ===
/** The REST handlers of server/routes.ts as functions from a database state and a request
    to a response and the next database state.

    The handler for `POST /api/bookings` reads seat availability before it opens its
    transaction, so two concurrent requests can both pass the availability read. Each handler is
    modelled here as one atomic step; interleavings of concurrent requests are not. */
module Routes {
  import opened Wrappers
  import opened Schema

  /** An HTTP reply: 200 with a JSON body, or an error status with its message. */
  datatype Response<T> = Ok(body: T) | Error(status: int, message: string)

  /** A response together with the database state after the request. */
  datatype Outcome<T> = Outcome(response: Response<T>, store: Store)

  /** The JSON body of `POST /api/bookings`. */
  datatype BookingRequest = BookingRequest(showtimeId: int, seatIds: seq<int>)

  /** Where a database call throws, if one does. Errors of the storage layer itself
      (connection loss, a failed commit) are not otherwise modelled. */
  datatype Fault = NoFault | SeatQueryFails | ShowtimeQueryFails | TransactionFails

  const AuthRequired: string := "Authentication required"
  const SeatsTaken: string := "Some seats are already booked"
  const ShowtimeNotFound: string := "Showtime not found"
  const BookingFailed: string := "Failed to create booking"

  /** The availability query finds a booked seat: some row of the requested showtime
      whose id is among the requested ids has `isBooked` set. The `id IN (...)` test is
      set membership on `seatIds`. Seen from the request's side, some requested id names
      an existing, booked seat of the requested showtime; ids with no row, and rows of
      other showtimes, never conflict. */
  function SeatConflict(seats: map<int, Seat>, req: BookingRequest): (r: bool)
    ensures r <==> exists i :: 0 <= i < |req.seatIds| && req.seatIds[i] in seats
                     && seats[req.seatIds[i]].showtimeId == req.showtimeId && IsBooked(seats[req.seatIds[i]])
  {
    var found := exists k :: k in seats && k in req.seatIds && seats[k].showtimeId == req.showtimeId && IsBooked(seats[k]);
    assert found ==> exists i :: 0 <= i < |req.seatIds| && req.seatIds[i] in seats
                       && seats[req.seatIds[i]].showtimeId == req.showtimeId && IsBooked(seats[req.seatIds[i]]) by {
      if found {
        var k :| k in seats && k in req.seatIds && seats[k].showtimeId == req.showtimeId && IsBooked(seats[k]);
        var i :| 0 <= i < |req.seatIds| && req.seatIds[i] == k;
      }
    }
    forall i | 0 <= i < |req.seatIds| && req.seatIds[i] in seats
        && seats[req.seatIds[i]].showtimeId == req.showtimeId && IsBooked(seats[req.seatIds[i]])
      ensures found
    {
      var k := req.seatIds[i];
      assert k in seats && k in req.seatIds && seats[k].showtimeId == req.showtimeId && IsBooked(seats[k]);
    }
    found
  }

  /** A showtime whose seats were all just inserted, each taking the `is_booked` default,
      has no booked seat, so no request meets a conflict. */
  lemma NewSeatsNeverConflict(seats: map<int, Seat>, req: BookingRequest)
    requires forall k :: k in seats ==>
               seats[k] == NewSeat(seats[k].id, seats[k].row, seats[k].number, seats[k].showtimeId)
    ensures !SeatConflict(seats, req)
  {
  }

  /** The seat updates of the transaction, one `UPDATE seats SET is_booked = true
      WHERE id = seatId` per requested id, in order. An id with no row updates nothing. */
  function MarkBooked(seats: map<int, Seat>, ids: seq<int>): (r: map<int, Seat>)
    ensures r.Keys == seats.Keys
    ensures forall k :: k in seats && k in ids ==> r[k] == seats[k].(isBooked := Some(true))
    ensures forall k :: k in seats && k !in ids ==> r[k] == seats[k]
    decreases |ids|
  {
    if |ids| == 0 then seats
    else
      var id := ids[0];
      var next := if id in seats then seats[id := seats[id].(isBooked := Some(true))] else seats;
      assert forall k :: k in ids <==> k == id || k in ids[1..];
      MarkBooked(next, ids[1..])
  }

  /** The row the transaction inserts into `bookings`. Only the first requested seat is
      recorded; the total counts every entry of `seatIds`, duplicates included. */
  function NewBooking(st: Store, userId: int, req: BookingRequest, price: int, now: int): Booking
    requires |req.seatIds| > 0
  {
    Booking(st.bookingSeq + 1, userId, req.showtimeId, req.seatIds[0], Some(now),
            price * |req.seatIds|, Confirmed)
  }

  /** The database refuses the inserted row: `seat_id` would be NULL (no seat requested),
      a foreign key on `seat_id` or `user_id` does not resolve, or the total does not fit
      the `integer` column `total_amount`. */
  predicate InsertRejected(st: Store, userId: int, req: BookingRequest, price: int) {
    || |req.seatIds| == 0
    || req.seatIds[0] !in st.seats
    || userId !in st.users
    || !IsInt32(price * |req.seatIds|)
  }

  /** The part of the handler after the availability check: the showtime lookup
      (404 when absent) and the transaction (500, rolled back, when it throws). */
  function LookupAndCommit(st: Store, user: User, req: BookingRequest, now: int, fault: Fault): (out: Outcome<Booking>)
    ensures out.response.Error? ==> out.store == st && out.response.status in {404, 500}
    ensures out.response == Error(404, ShowtimeNotFound) <==>
              fault != ShowtimeQueryFails && req.showtimeId !in st.showtimes
    ensures out.response == Error(500, BookingFailed) <==>
              || fault == ShowtimeQueryFails
              || (&& req.showtimeId in st.showtimes
                  && (fault == TransactionFails || InsertRejected(st, user.id, req, st.showtimes[req.showtimeId].price)))
    ensures out.response.Ok? ==>
              && fault !in {ShowtimeQueryFails, TransactionFails}
              && BookingAsRequested(st, user, req, out.response.body)
              && !InsertRejected(st, user.id, req, st.showtimes[req.showtimeId].price)
              && SuccessfulWrite(st, out.store, out.response.body, req.seatIds)
    // a request that passes the lookup and whose row the database accepts succeeds
    ensures (&& fault !in {ShowtimeQueryFails, TransactionFails} && req.showtimeId in st.showtimes
             && !InsertRejected(st, user.id, req, st.showtimes[req.showtimeId].price)) ==>
              out.response.Ok?
  {
    if fault == ShowtimeQueryFails then Outcome(Error(500, BookingFailed), st)
    else if req.showtimeId !in st.showtimes then Outcome(Error(404, ShowtimeNotFound), st)
    else
      var price := st.showtimes[req.showtimeId].price;
      if fault == TransactionFails || InsertRejected(st, user.id, req, price) then
        Outcome(Error(500, BookingFailed), st)
      else
        var b := NewBooking(st, user.id, req, price, now);
        Outcome(Ok(b), st.(bookings := st.bookings[b.id := b],
                           seats := MarkBooked(st.seats, req.seatIds),
                           bookingSeq := b.id))
  }

  /** The booking's fields as the handler writes them. */
  predicate BookingAsRequested(st: Store, user: User, req: BookingRequest, b: Booking)
  {
    && |req.seatIds| > 0
    && req.showtimeId in st.showtimes
    && b.userId == user.id
    && b.showtimeId == req.showtimeId
    && b.seatId == req.seatIds[0]
    && b.totalAmount == st.showtimes[req.showtimeId].price * |req.seatIds|
    && b.status == Confirmed
    && b.id == st.bookingSeq + 1
  }

  /** What a successful booking writes: the one new row, every requested seat flagged as
      booked (whatever its showtime), and nothing else. */
  predicate SuccessfulWrite(st: Store, st': Store, b: Booking, ids: seq<int>)
  {
    && st'.bookings == st.bookings[b.id := b]
    && st'.bookingSeq == b.id
    && st'.users == st.users
    && st'.movies == st.movies
    && st'.showtimes == st.showtimes
    && st'.seats.Keys == st.seats.Keys
    && (forall k :: k in st.seats && k in ids ==> st'.seats[k] == st.seats[k].(isBooked := Some(true)))
    && (forall k :: k in st.seats && k !in ids ==> st'.seats[k] == st.seats[k])
  }

  /** `POST /api/bookings`. */
  function CreateBooking(st: Store, user: Option<User>, req: BookingRequest, now: int, fault: Fault): (out: Outcome<Booking>)
    // 401 before anything is read
    ensures user.None? <==> out == Outcome(Error(401, AuthRequired), st)
    // all-or-nothing: every error leaves every table as it was
    ensures out.response.Error? ==> out.store == st
    ensures out.response.Error? ==> out.response.status in {400, 401, 404, 500}
    // the availability check comes before the showtime lookup
    ensures out.response == Error(400, SeatsTaken) <==>
              user.Some? && fault != SeatQueryFails && SeatConflict(st.seats, req)
    ensures out.response == Error(404, ShowtimeNotFound) <==>
              && user.Some? && fault !in {SeatQueryFails, ShowtimeQueryFails}
              && !SeatConflict(st.seats, req) && req.showtimeId !in st.showtimes
    // a thrown query, a thrown transaction or a row the database refuses: 500
    ensures out.response == Error(500, BookingFailed) <==>
              && user.Some?
              && (|| fault == SeatQueryFails
                  || (&& !SeatConflict(st.seats, req)
                      && (|| fault == ShowtimeQueryFails
                          || (&& req.showtimeId in st.showtimes
                              && (|| fault == TransactionFails
                                  || InsertRejected(st, user.value.id, req, st.showtimes[req.showtimeId].price))))))
    ensures out.response.Ok? ==>
              && user.Some? && fault == NoFault && !SeatConflict(st.seats, req)
              && BookingAsRequested(st, user.value, req, out.response.body)
              && !InsertRejected(st, user.value.id, req, st.showtimes[req.showtimeId].price)
              && SuccessfulWrite(st, out.store, out.response.body, req.seatIds)
    // a request that passes every check succeeds
    ensures (&& user.Some? && fault == NoFault && !SeatConflict(st.seats, req) && req.showtimeId in st.showtimes
             && !InsertRejected(st, user.value.id, req, st.showtimes[req.showtimeId].price)) ==>
              out.response.Ok?
  {
    if user.None? then Outcome(Error(401, AuthRequired), st)
    else if fault == SeatQueryFails then Outcome(Error(500, BookingFailed), st)
    else if SeatConflict(st.seats, req) then Outcome(Error(400, SeatsTaken), st)
    else LookupAndCommit(st, user.value, req, now, fault)
  }

  /** A successful booking keeps the database well formed, and the new booking's id was
      not in use: exactly one row is added to `bookings`. */
  lemma CreateBookingPreservesWellFormed(st: Store, user: Option<User>, req: BookingRequest, now: int, fault: Fault)
    requires WellFormed(st)
    requires CreateBooking(st, user, req, now, fault).response.Ok?
    ensures WellFormed(CreateBooking(st, user, req, now, fault).store)
    ensures var out := CreateBooking(st, user, req, now, fault);
            out.response.body.id !in st.bookings && |out.store.bookings| == |st.bookings| + 1
  {
  }

  /** After a successful booking, any later request naming one of the booked seats under
      that seat's own showtime is refused with 400: within a showtime a seat is not sold
      twice (for requests handled one after the other). */
  lemma RebookingSameShowtimeConflicts(
    st: Store, user: Option<User>, req: BookingRequest, now: int,
    user2: User, req2: BookingRequest, now2: int, fault2: Fault, k: int)
    requires CreateBooking(st, user, req, now, NoFault).response.Ok?
    requires k in req.seatIds && k in req2.seatIds && k in st.seats
    requires st.seats[k].showtimeId == req2.showtimeId
    requires fault2 != SeatQueryFails
    ensures CreateBooking(CreateBooking(st, user, req, now, NoFault).store, Some(user2), req2, now2, fault2).response
            == Error(400, SeatsTaken)
  {
  }

  /** The availability check looks only at seats of the requested showtime: it gives the
      same answer on the showtime's own seats as on the whole table. */
  lemma ConflictScopedToShowtime(seats: map<int, Seat>, req: BookingRequest)
    ensures SeatConflict(seats, req) <==>
            SeatConflict(Where(seats, (s: Seat) => s.showtimeId == req.showtimeId), req)
  {
  }

  // ---------------------------------------------------------------- read endpoints

  /** The rows of `table` satisfying `keep` (an SQL `WHERE` over one table). */
  function Where<T>(table: map<int, T>, keep: T -> bool): (r: map<int, T>)
    ensures r.Keys <= table.Keys
    ensures forall k :: k in table ==> (k in r <==> keep(table[k]))
    ensures forall k :: k in r ==> r[k] == table[k]
  {
    map k | k in table && keep(table[k]) :: table[k]
  }

  /** `GET /api/movies/:movieId/showtimes`. */
  function ShowtimesOfMovie(st: Store, movieId: int, fault: bool): (r: Response<map<int, Showtime>>)
    ensures fault <==> r == Error(500, "Failed to fetch showtimes")
    ensures !fault ==> r.Ok?
    ensures r.Ok? ==> forall k :: k in st.showtimes ==> (k in r.body <==> st.showtimes[k].movieId == movieId)
    ensures r.Ok? ==> forall k :: k in r.body ==> k in st.showtimes && r.body[k] == st.showtimes[k]
  {
    if fault then Error(500, "Failed to fetch showtimes")
    else Ok(Where(st.showtimes, (s: Showtime) => s.movieId == movieId))
  }

  /** `GET /api/showtimes/:showtimeId/seats`. */
  function SeatsOfShowtime(st: Store, showtimeId: int, fault: bool): (r: Response<map<int, Seat>>)
    ensures fault <==> r == Error(500, "Failed to fetch seats")
    ensures !fault ==> r.Ok?
    ensures r.Ok? ==> forall k :: k in st.seats ==> (k in r.body <==> st.seats[k].showtimeId == showtimeId)
    ensures r.Ok? ==> forall k :: k in r.body ==> k in st.seats && r.body[k] == st.seats[k]
  {
    if fault then Error(500, "Failed to fetch seats")
    else Ok(Where(st.seats, (s: Seat) => s.showtimeId == showtimeId))
  }

  /** `GET /api/bookings`: 401 without a user, else the user's bookings. */
  function BookingsOfUser(st: Store, user: Option<User>, fault: bool): (r: Response<map<int, Booking>>)
    ensures user.None? <==> r == Error(401, AuthRequired)
    ensures user.Some? && fault <==> r == Error(500, "Failed to fetch bookings")
    ensures user.Some? && !fault ==> r.Ok?
    ensures r.Ok? ==> forall k :: k in st.bookings ==> (k in r.body <==> st.bookings[k].userId == user.value.id)
    ensures r.Ok? ==> forall k :: k in r.body ==> k in st.bookings && r.body[k] == st.bookings[k]
  {
    if user.None? then Error(401, AuthRequired)
    else if fault then Error(500, "Failed to fetch bookings")
    else Ok(Where(st.bookings, (b: Booking) => b.userId == user.value.id))
  }

  /** In a well-formed database the seat listings split the seats table: every seat is
      listed under its own showtime and under no other. */
  lemma SeatListingsPartition(st: Store, k: int, showtimeId: int)
    requires WellFormed(st) && k in st.seats
    ensures st.seats[k].showtimeId in st.showtimes
    ensures k in SeatsOfShowtime(st, showtimeId, false).body <==> showtimeId == st.seats[k].showtimeId
  {
  }

  /** The four stock posters `GET /api/movies` substitutes for an empty `posterUrl`. */
  const FallbackPosters: seq<string> := [
    "https://images.unsplash.com/photo-1598827510504-b204c095f5cb",
    "https://images.unsplash.com/photo-1569793667639-dae11573b34f",
    "https://images.unsplash.com/photo-1623116135518-7953c5038f5b",
    "https://images.unsplash.com/photo-1572188863110-46d457c9234d"
  ]

  /** An index into `FallbackPosters`, as `Math.floor(Math.random() * 4)` yields. */
  type PosterChoice = i: int | 0 <= i < 4

  /** `GET /api/movies`. The random draw for each movie is the parameter `pick`. */
  function ListMovies(st: Store, pick: int -> PosterChoice, fault: bool): (r: Response<map<int, Movie>>)
    ensures fault <==> r == Error(500, "Failed to fetch movies")
    ensures !fault ==> r.Ok?
    ensures r.Ok? ==> r.body.Keys == st.movies.Keys
    ensures r.Ok? ==> forall k :: k in r.body ==>
              && r.body[k] == st.movies[k].(posterUrl := r.body[k].posterUrl)
              && r.body[k].posterUrl != ""
              && (st.movies[k].posterUrl != "" ==> r.body[k].posterUrl == st.movies[k].posterUrl)
              && (st.movies[k].posterUrl == "" ==> r.body[k].posterUrl in FallbackPosters)
  {
    if fault then Error(500, "Failed to fetch movies")
    else Ok(map k | k in st.movies ::
              var m := st.movies[k];
              m.(posterUrl := if m.posterUrl != "" then m.posterUrl else FallbackPosters[pick(k)]))
  }

  /** What a client reads back after a successful booking: the showtime's seat listing has
      the same seats as before, each requested one now booked and the others unchanged,
      and the user's bookings now include the new one. */
  lemma ReadAfterBooking(st: Store, user: User, req: BookingRequest, now: int)
    requires CreateBooking(st, Some(user), req, now, NoFault).response.Ok?
    ensures var out := CreateBooking(st, Some(user), req, now, NoFault);
            var before := SeatsOfShowtime(st, req.showtimeId, false).body;
            var after := SeatsOfShowtime(out.store, req.showtimeId, false).body;
            && after.Keys == before.Keys
            && (forall k :: k in after && k in req.seatIds ==> IsBooked(after[k]))
            && (forall k :: k in after && k !in req.seatIds ==> after[k] == before[k])
            && var mine := BookingsOfUser(out.store, Some(user), false).body;
               && out.response.body.id in mine
               && mine[out.response.body.id] == out.response.body
  {
  }

  // ------------------------------------------------ seats of another showtime

  /** A small cinema: one user, two showtimes of one movie, and seat 10 of showtime 2 as
      inserted, not yet booked. */
  const Ann: User := User(1, "ann", "pw", None)
  const Cinema: Store := Store(
    map[1 := Ann],
    map[1 := Movie(1, "Heat", "", 170, "", 0)],
    map[1 := Showtime(1, 1, 0, 1, 900), 2 := Showtime(2, 1, 2, 3, 900)],
    map[10 := NewSeat(10, "A", 1, 2)],
    map[],
    0)

  /** The first sale: seat 10 is bought under its own showtime. */
  lemma FirstSale()
    ensures var first := CreateBooking(Cinema, Some(Ann), BookingRequest(2, [10]), 5, NoFault);
            && first.response == Ok(Booking(1, 1, 2, 10, Some(5), 900, Confirmed))
            && first.store == Cinema.(bookings := map[1 := Booking(1, 1, 2, 10, Some(5), 900, Confirmed)],
                                      seats := map[10 := Seat(10, "A", 1, 2, Some(true))],
                                      bookingSeq := 1)
  {
  }

  /** As written, a request for one showtime can name a seat of another showtime: the
      availability check skips it and the update still flags it, so a seat that is already
      booked is sold a second time. After the first sale, a request for showtime 1 naming
      seat 10 also succeeds, and the bookings table ends with two bookings of seat 10. */
  lemma ForeignSeatSoldTwice()
    ensures var first := CreateBooking(Cinema, Some(Ann), BookingRequest(2, [10]), 5, NoFault);
            var second := CreateBooking(first.store, Some(Ann), BookingRequest(1, [10]), 6, NoFault);
            && WellFormed(Cinema)
            && first.response.Ok? && first.response.body.seatId == 10
            && IsBooked(first.store.seats[10])
            && second.response.Ok? && second.response.body.seatId == 10
            && first.response.body.id != second.response.body.id
            && first.response.body.id in second.store.bookings
            && second.response.body.id in second.store.bookings
            && second.store.bookings[first.response.body.id].seatId == 10
            && second.store.bookings[second.response.body.id].seatId == 10
  {
  }

  /** The availability check the handler evidently intends: every requested id must be
      an existing, unbooked seat of the requested showtime. */
  predicate SeatUnavailable(seats: map<int, Seat>, req: BookingRequest) {
    exists i :: 0 <= i < |req.seatIds| &&
      (|| req.seatIds[i] !in seats
       || seats[req.seatIds[i]].showtimeId != req.showtimeId
       || IsBooked(seats[req.seatIds[i]]))
  }

  /** `POST /api/bookings` with the availability check scoped to the requested seats. */
  function CreateBookingScoped(st: Store, user: Option<User>, req: BookingRequest, now: int, fault: Fault): (out: Outcome<Booking>)
    // on requests naming only free seats of the showtime it behaves as the original handler
    ensures !SeatUnavailable(st.seats, req) ==> out == CreateBooking(st, user, req, now, fault)
    // the fix only adds refusals: every answer other than its 400 is the original's
    ensures out.response != Error(400, SeatsTaken) ==> out == CreateBooking(st, user, req, now, fault)
    ensures out.response == Error(400, SeatsTaken) <==>
              user.Some? && fault != SeatQueryFails && SeatUnavailable(st.seats, req)
    ensures out.response.Error? ==> out.store == st
    ensures out.response.Ok? ==>
              && user.Some? && fault == NoFault
              && BookingAsRequested(st, user.value, req, out.response.body)
              && SuccessfulWrite(st, out.store, out.response.body, req.seatIds)
              && forall i :: 0 <= i < |req.seatIds| ==>
                   && req.seatIds[i] in st.seats
                   && st.seats[req.seatIds[i]].showtimeId == req.showtimeId
                   && !IsBooked(st.seats[req.seatIds[i]])
  {
    if user.None? then Outcome(Error(401, AuthRequired), st)
    else if fault == SeatQueryFails then Outcome(Error(500, BookingFailed), st)
    else if SeatUnavailable(st.seats, req) then Outcome(Error(400, SeatsTaken), st)
    else LookupAndCommit(st, user.value, req, now, fault)
  }

  /** With the scoped check no seat is ever sold twice: after a successful booking, every
      later request naming any of its seats, under any showtime, is refused with 400. */
  lemma ScopedNeverSellsTwice(
    st: Store, user: Option<User>, req: BookingRequest, now: int,
    user2: User, req2: BookingRequest, now2: int, fault2: Fault, k: int)
    requires CreateBookingScoped(st, user, req, now, NoFault).response.Ok?
    requires k in req.seatIds && k in req2.seatIds
    requires fault2 != SeatQueryFails
    ensures CreateBookingScoped(CreateBookingScoped(st, user, req, now, NoFault).store,
                                Some(user2), req2, now2, fault2).response == Error(400, SeatsTaken)
  {
  }
}

=== FILE: schema.dfy ===
/** The five tables of the database (db/schema.ts) as immutable records, and the
    constraints the schema declares on them. Timestamps are abstract instants (`int`);
    every `integer` column is a Postgres 32-bit integer. */
module Schema {
  import opened Wrappers

  const MinInt32: int := -0x8000_0000
  const MaxInt32: int := 0x7FFF_FFFF

  /** The range of a Postgres `integer` column; a value outside it makes the write fail. */
  predicate IsInt32(n: int) {
    MinInt32 <= n <= MaxInt32
  }

  datatype User = User(id: int, username: string, password: string, createdAt: Option<int>)

  datatype Movie = Movie(
    id: int,
    title: string,
    description: string,
    duration: int,        // minutes
    posterUrl: string,
    releaseDate: int)

  /** `price` is in cents. */
  datatype Showtime = Showtime(id: int, movieId: int, startTime: int, endTime: int, price: int)

  /** `isBooked` is a nullable boolean column: `None` is SQL NULL. */
  datatype Seat = Seat(id: int, row: string, number: int, showtimeId: int, isBooked: Option<bool>)

  /** `totalAmount` is in cents; `status` is free text. */
  datatype Booking = Booking(
    id: int,
    userId: int,
    showtimeId: int,
    seatId: int,
    createdAt: Option<int>,
    totalAmount: int,
    status: string)

  /** The two values the `status` column is meant to hold; the schema does not restrict it. */
  const Confirmed: string := "confirmed"
  const Cancelled: string := "cancelled"

  /** Readers treat a NULL `isBooked` as not booked. */
  predicate IsBooked(s: Seat) {
    s.isBooked.GetOr(false)
  }

  /** A seat as inserted without an explicit `isBooked`: the column default applies. */
  function NewSeat(id: int, row: string, number: int, showtimeId: int): (s: Seat)
    ensures !IsBooked(s) && s.isBooked.Some?
    ensures s.id == id && s.row == row && s.number == number && s.showtimeId == showtimeId
  {
    Seat(id, row, number, showtimeId, Some(false))
  }

  /** `list.some(s => s.id === id)`: some seat in `list` carries the id. */
  predicate HasSeatId(list: seq<Seat>, id: int) {
    exists i :: 0 <= i < |list| && list[i].id == id
  }

  /** The database: one map per table from primary key to row. `bookingSeq` is the last
      value handed out by the identity sequence of `bookings.id`. */
  datatype Store = Store(
    users: map<int, User>,
    movies: map<int, Movie>,
    showtimes: map<int, Showtime>,
    seats: map<int, Seat>,
    bookings: map<int, Booking>,
    bookingSeq: int)

  predicate UniqueUsernames(users: map<int, User>) {
    forall a, b :: a in users && b in users && users[a].username == users[b].username ==> a == b
  }

  /** Primary keys agree with the id column. */
  predicate KeysMatchIds(st: Store) {
    && (forall k :: k in st.users ==> st.users[k].id == k)
    && (forall k :: k in st.movies ==> st.movies[k].id == k)
    && (forall k :: k in st.showtimes ==> st.showtimes[k].id == k)
    && (forall k :: k in st.seats ==> st.seats[k].id == k)
    && (forall k :: k in st.bookings ==> st.bookings[k].id == k)
  }

  /** Every non-null foreign key references an existing row. */
  predicate ReferencesResolve(st: Store) {
    && (forall k :: k in st.showtimes ==> st.showtimes[k].movieId in st.movies)
    && (forall k :: k in st.seats ==> st.seats[k].showtimeId in st.showtimes)
    && (forall k :: k in st.bookings ==>
          && st.bookings[k].userId in st.users
          && st.bookings[k].showtimeId in st.showtimes
          && st.bookings[k].seatId in st.seats)
  }

  /** The `integer` columns the booking flow reads or writes hold 32-bit values. */
  predicate IntegerColumnsInRange(st: Store) {
    && (forall k :: k in st.showtimes ==> IsInt32(st.showtimes[k].price))
    && (forall k :: k in st.bookings ==> IsInt32(st.bookings[k].totalAmount))
  }

  /** Identity values already issued are never reissued. */
  predicate IdentityAhead(st: Store) {
    forall k :: k in st.bookings ==> k <= st.bookingSeq
  }

  /** The constraints db/schema.ts declares, as one predicate over a database state. */
  predicate WellFormed(st: Store) {
    && KeysMatchIds(st)
    && ReferencesResolve(st)
    && UniqueUsernames(st.users)
    && IntegerColumnsInRange(st)
    && IdentityAhead(st)
  }

  /** Inserting a user under the `unique` constraint on `username`: the insert is refused
      when the id or the username is taken. */
  function InsertUser(users: map<int, User>, u: User): (r: Option<map<int, User>>)
    ensures r.None? <==> u.id in users || exists k :: k in users && users[k].username == u.username
    ensures r.Some? ==> r.value.Keys == users.Keys + {u.id} && r.value[u.id] == u
    ensures r.Some? ==> forall k :: k in users ==> r.value[k] == users[k]
  {
    if u.id in users || exists k :: k in users && users[k].username == u.username then None
    else Some(users[u.id := u])
  }

  lemma InsertUserKeepsUsernamesUnique(users: map<int, User>, u: User)
    requires UniqueUsernames(users)
    requires InsertUser(users, u).Some?
    ensures UniqueUsernames(InsertUser(users, u).value)
  {
  }
}

=== FILE: seat_selector.dfy ===
/** The seat map (client/src/components/SeatSelector.tsx): one line per distinct row
    label in ascending order, each `seatsPerRow` cells wide, where cell `i` of row `r`
    shows the first seat of row `r` numbered `i + 1`, or an empty placeholder. */
module SeatSelector {
  import opened Wrappers
  import opened Schema
  import Seqs

  /** JavaScript's default string order (`Array.prototype.sort`, `<`): lexicographic on
      code units, a proper prefix coming first. */
  predicate Less(a: string, b: string)
    decreases |a|
  {
    if |b| == 0 then false
    else if |a| == 0 then true
    else if a[0] != b[0] then a[0] < b[0]
    else Less(a[1..], b[1..])
  }

  lemma {:induction false} LessIrreflexive(a: string)
    ensures !Less(a, a)
    decreases |a|
  {
    if |a| > 0 {
      LessIrreflexive(a[1..]);
    }
  }

  lemma {:induction false} LessTransitive(a: string, b: string, c: string)
    requires Less(a, b) && Less(b, c)
    ensures Less(a, c)
    decreases |a|
  {
    if |a| > 0 && a[0] == b[0] && b[0] == c[0] {
      LessTransitive(a[1..], b[1..], c[1..]);
    }
  }

  lemma {:induction false} LessTotal(a: string, b: string)
    requires a != b
    ensures Less(a, b) || Less(b, a)
    decreases |a|
  {
    if |a| > 0 && |b| > 0 && a[0] == b[0] {
      assert a == [a[0]] + a[1..] && b == [b[0]] + b[1..];
      LessTotal(a[1..], b[1..]);
    }
  }

  lemma {:induction false} LessAsymmetric(a: string, b: string)
    requires Less(a, b)
    ensures !Less(b, a)
  {
    if Less(b, a) {
      LessTransitive(a, b, a);
      LessIrreflexive(a);
    }
  }

  predicate StrictlyAscending(s: seq<string>) {
    forall i, j :: 0 <= i < j < |s| ==> Less(s[i], s[j])
  }

  /** Putting `y` in front of an ascending sequence of strings all greater than it. */
  lemma AscendingCons(y: string, s: seq<string>)
    requires StrictlyAscending(s)
    requires forall i :: 0 <= i < |s| ==> Less(y, s[i])
    ensures StrictlyAscending([y] + s)
  {
  }

  /** One step of sorting the distinct labels: `x` placed into an ascending sequence,
      once. */
  function InsertSorted(x: string, ys: seq<string>): (r: seq<string>)
    requires StrictlyAscending(ys)
    ensures StrictlyAscending(r)
    ensures |r| > 0
    ensures forall z :: z in r <==> z == x || z in ys
    decreases |ys|
  {
    if |ys| == 0 then [x]
    else if x == ys[0] then ys
    else if Less(x, ys[0]) then
      assert forall i :: 0 <= i < |ys| ==> Less(x, ys[i]) by {
        forall i | 0 <= i < |ys| ensures Less(x, ys[i]) {
          if i > 0 {
            LessTransitive(x, ys[0], ys[i]);
          }
        }
      }
      AscendingCons(x, ys);
      [x] + ys
    else
      var rest := InsertSorted(x, ys[1..]);
      assert forall i :: 0 <= i < |rest| ==> Less(ys[0], rest[i]) by {
        LessTotal(x, ys[0]);
        forall i | 0 <= i < |rest| ensures Less(ys[0], rest[i]) {
          assert rest[i] in rest;
          if rest[i] != x {
            var k :| 0 <= k < |ys[1..]| && ys[1..][k] == rest[i];
            assert ys[1..][k] == ys[k + 1];
          }
        }
      }
      AscendingCons(ys[0], rest);
      assert forall z :: z in ys <==> z == ys[0] || z in ys[1..] by {
        assert ys == [ys[0]] + ys[1..];
      }
      [ys[0]] + rest
  }

  /** The distinct labels of `xs` in ascending order. */
  function SortedDistinct(xs: seq<string>): (r: seq<string>)
    ensures StrictlyAscending(r)
    ensures forall z :: z in r <==> z in xs
    decreases |xs|
  {
    if |xs| == 0 then []
    else
      assert forall z :: z in xs <==> z == xs[0] || z in xs[1..] by {
        assert xs == [xs[0]] + xs[1..];
      }
      InsertSorted(xs[0], SortedDistinct(xs[1..]))
  }

  /** Two ascending sequences with the same elements are equal: sorting a set of distinct
      labels has one possible result. */
  lemma {:induction false} AscendingUnique(a: seq<string>, b: seq<string>)
    requires StrictlyAscending(a) && StrictlyAscending(b)
    requires forall z :: z in a <==> z in b
    ensures a == b
    decreases |a|
  {
    if |a| > 0 {
      assert a[0] in b;
      assert |b| > 0;
      assert b[0] in a;
      if a[0] != b[0] {
        var i :| 0 <= i < |b| && b[i] == a[0];
        var j :| 0 <= j < |a| && a[j] == b[0];
        assert Less(b[0], a[0]);
        assert Less(a[0], b[0]);
        LessAsymmetric(a[0], b[0]);
        assert false;
      }
      assert a == [a[0]] + a[1..] && b == [b[0]] + b[1..];
      forall z ensures z in a[1..] <==> z in b[1..] {
        NotInTail(a, z);
        NotInTail(b, z);
        assert z in a <==> z == a[0] || z in a[1..];
        assert z in b <==> z == b[0] || z in b[1..];
      }
      forall i, j | 0 <= i < j < |a[1..]| ensures Less(a[1..][i], a[1..][j]) {
        assert a[1..][i] == a[i + 1] && a[1..][j] == a[j + 1];
      }
      forall i, j | 0 <= i < j < |b[1..]| ensures Less(b[1..][i], b[1..][j]) {
        assert b[1..][i] == b[i + 1] && b[1..][j] == b[j + 1];
      }
      AscendingUnique(a[1..], b[1..]);
      assert a == [a[0]] + a[1..] && b == [b[0]] + b[1..];
    } else {
      HeadIsElement(b);
    }
  }

  lemma HeadIsElement(s: seq<string>)
    ensures |s| > 0 ==> s[0] in s
  {
  }

  /** The head of an ascending sequence does not reappear in its tail. */
  lemma NotInTail(s: seq<string>, z: string)
    requires StrictlyAscending(s) && |s| > 0
    ensures z == s[0] ==> z !in s[1..]
  {
    if z == s[0] && z in s[1..] {
      var k :| 0 <= k < |s[1..]| && s[1..][k] == z;
      assert s[k + 1] == z;
      LessIrreflexive(z);
    }
  }

  /** The row label of every seat, in order. */
  function RowLabels(seats: seq<Seat>): (r: seq<string>)
    ensures |r| == |seats| && forall i :: 0 <= i < |seats| ==> r[i] == seats[i].row
  {
    seq(|seats|, i requires 0 <= i < |seats| => seats[i].row)
  }

  /** `rows`: the distinct row labels (`new Set(...)`), sorted. */
  function Rows(seats: seq<Seat>): (r: seq<string>)
    ensures StrictlyAscending(r)
    ensures forall z :: z in r <==> exists i :: 0 <= i < |seats| && seats[i].row == z
  {
    var labels := RowLabels(seats);
    assert forall z :: z in labels <==> exists i :: 0 <= i < |seats| && seats[i].row == z by {
      forall z | z in labels ensures exists i :: 0 <= i < |seats| && seats[i].row == z {
        var i :| 0 <= i < |labels| && labels[i] == z;
      }
    }
    SortedDistinct(labels)
  }

  /** `Rows` is what `Array.from(new Set(...)).sort()` computes: whatever sorting the
      de-duplicated labels produces is the ascending list `Rows` returns. */
  lemma RowsIsSortedSet(seats: seq<Seat>, sorted: seq<string>)
    requires StrictlyAscending(sorted)
    requires forall z :: z in sorted <==> z in Seqs.Distinct(RowLabels(seats))
    ensures sorted == Rows(seats)
  {
    var labels := RowLabels(seats);
    var d := Seqs.Distinct(labels);
    forall z ensures z in sorted <==> z in Rows(seats) {
      Seqs.DistinctMember(labels, z);
      if z in d {
        var i :| 0 <= i < |d| && d[i] == z;
        assert d[i] in labels;
        var k :| 0 <= k < |labels| && labels[k] == z;
      }
      if z in Rows(seats) {
        var i :| 0 <= i < |seats| && seats[i].row == z;
        assert labels[i] == z;
      }
    }
    AscendingUnique(sorted, Rows(seats));
  }

  /** Every seat's row label is listed exactly once. */
  lemma RowsListEachRowOnce(seats: seq<Seat>, k: int)
    requires 0 <= k < |seats|
    ensures exists i :: 0 <= i < |Rows(seats)| && Rows(seats)[i] == seats[k].row
    ensures forall i, j :: 0 <= i < j < |Rows(seats)| ==> Rows(seats)[i] != Rows(seats)[j]
  {
    var r := Rows(seats);
    assert seats[k].row in r;
    forall i, j | 0 <= i < j < |r| ensures r[i] != r[j] {
      LessIrreflexive(r[i]);
    }
  }

  /** `Math.max(...seats.map(seat => seat.number))`; `None` is the `-Infinity` of an
      empty argument list. */
  function MaxNumber(seats: seq<Seat>): (m: Option<int>)
    ensures m.None? <==> |seats| == 0
    ensures m.Some? ==> forall i :: 0 <= i < |seats| ==> seats[i].number <= m.value
    ensures m.Some? ==> exists i :: 0 <= i < |seats| && seats[i].number == m.value
    decreases |seats|
  {
    if |seats| == 0 then None
    else match MaxNumber(seats[1..])
      case None => Some(seats[0].number)
      case Some(n) =>
        assert forall i :: 1 <= i < |seats| ==> seats[i] == seats[1..][i - 1];
        Some(if seats[0].number > n then seats[0].number else n)
  }

  /** `seatsPerRow` as `Array.from({ length: seatsPerRow })` uses it: the length is
      clamped to 0 when the maximum is negative or `-Infinity`. */
  function SeatsPerRow(seats: seq<Seat>): (w: nat)
    ensures forall i :: 0 <= i < |seats| ==> seats[i].number <= w || seats[i].number < 1
    ensures w > 0 ==> exists i :: 0 <= i < |seats| && seats[i].number == w
  {
    match MaxNumber(seats)
    case None => 0
    case Some(m) => if m < 0 then 0 else m
  }

  /** `seats.find(s => s.row === row && s.number === number)`, as an index. */
  function FindSeat(seats: seq<Seat>, row: string, number: int): (r: Option<nat>)
    ensures r.Some? ==> r.value < |seats| && seats[r.value].row == row && seats[r.value].number == number
    ensures r.Some? ==> forall j :: 0 <= j < r.value ==> !(seats[j].row == row && seats[j].number == number)
    ensures r.None? ==> forall j :: 0 <= j < |seats| ==> !(seats[j].row == row && seats[j].number == number)
    decreases |seats|
  {
    if |seats| == 0 then None
    else if seats[0].row == row && seats[0].number == number then Some(0)
    else match FindSeat(seats[1..], row, number)
      case None => None
      case Some(k) => Some(k + 1)
  }

  /** One cell of the map: a placeholder, or a seat button with its two flags. */
  datatype Cell = Placeholder | Button(seat: Seat, disabled: bool, selected: bool)

  datatype RowView = RowView(row: string, cells: seq<Cell>)

  /** The cell for column `i` (seat number `i + 1`) of `row`. */
  function CellAt(seats: seq<Seat>, selected: seq<Seat>, row: string, i: int): (c: Cell)
    ensures c.Placeholder? <==> forall k :: 0 <= k < |seats| ==> !(seats[k].row == row && seats[k].number == i + 1)
    ensures c.Button? ==>
              && c.seat.row == row && c.seat.number == i + 1
              && (c.disabled <==> IsBooked(c.seat))
              && (c.selected <==> HasSeatId(selected, c.seat.id))
  {
    match FindSeat(seats, row, i + 1)
    case None => Placeholder
    case Some(k) => Button(seats[k], IsBooked(seats[k]), HasSeatId(selected, seats[k].id))
  }

  /** The whole seat map. */
  function Layout(seats: seq<Seat>, selected: seq<Seat>): (view: seq<RowView>)
    ensures |view| == |Rows(seats)|
    ensures forall r :: 0 <= r < |view| ==>
              view[r].row == Rows(seats)[r] && |view[r].cells| == SeatsPerRow(seats)
  {
    var rows := Rows(seats);
    var width := SeatsPerRow(seats);
    seq(|rows|, r requires 0 <= r < |rows| =>
      RowView(rows[r], seq(width, i requires 0 <= i < width => CellAt(seats, selected, rows[r], i))))
  }

  /** The seat `seats[k]` is the first one listed for its row and number. */
  predicate FirstAtPosition(seats: seq<Seat>, k: int)
    requires 0 <= k < |seats|
  {
    forall j :: 0 <= j < k ==> !(seats[j].row == seats[k].row && seats[j].number == seats[k].number)
  }

  /** What a button of the map shows: the first seat listed for that row and number,
      with `disabled` iff the seat is booked and `selected` iff its id is selected. */
  lemma ButtonsShowFirstSeat(seats: seq<Seat>, selected: seq<Seat>, r: int, c: int)
    requires 0 <= r < |Layout(seats, selected)|
    requires 0 <= c < |Layout(seats, selected)[r].cells|
    ensures var cell := Layout(seats, selected)[r].cells[c];
            cell.Button? ==>
              && (exists k :: 0 <= k < |seats| && seats[k] == cell.seat && FirstAtPosition(seats, k))
              && cell.seat.row == Rows(seats)[r]
              && cell.seat.number == c + 1
              && (cell.disabled <==> cell.seat.isBooked == Some(true))
              && (cell.selected <==> exists i :: 0 <= i < |selected| && selected[i].id == cell.seat.id)
    ensures var cell := Layout(seats, selected)[r].cells[c];
            cell.Placeholder? ==>
              forall k :: 0 <= k < |seats| ==> !(seats[k].row == Rows(seats)[r] && seats[k].number == c + 1)
  {
  }

  /** Every seat numbered 1 or more that is the first for its row and number has a button
      in the map, in its row's line at column `number - 1`. */
  lemma {:induction false} EveryFirstSeatShown(seats: seq<Seat>, selected: seq<Seat>, k: int)
    requires 0 <= k < |seats| && seats[k].number >= 1 && FirstAtPosition(seats, k)
    ensures exists r, c :: 0 <= r < |Layout(seats, selected)| && 0 <= c < |Layout(seats, selected)[r].cells|
              && Layout(seats, selected)[r].cells[c].Button?
              && Layout(seats, selected)[r].cells[c].seat == seats[k]
  {
    var view := Layout(seats, selected);
    var rows := Rows(seats);
    assert seats[k].row in rows;
    var r := Seqs.IndexOf(rows, seats[k].row);
    var c := seats[k].number - 1;
    assert c < SeatsPerRow(seats);
    assert view[r].cells[c] == CellAt(seats, selected, rows[r], c);
    var found := FindSeat(seats, seats[k].row, seats[k].number);
    assert found == Some(k);
  }

  /** A seat numbered below 1 has no button, and neither has a later seat at the same row
      and number as an earlier, different one. */
  lemma HiddenSeats(seats: seq<Seat>, selected: seq<Seat>, k: int)
    requires 0 <= k < |seats|
    ensures var view := Layout(seats, selected);
            seats[k].number < 1 ==>
              forall r, c :: 0 <= r < |view| && 0 <= c < |view[r].cells| && view[r].cells[c].Button? ==>
                view[r].cells[c].seat != seats[k]
    ensures var view := Layout(seats, selected);
            (exists j :: 0 <= j < k && seats[j].row == seats[k].row && seats[j].number == seats[k].number
                && (forall m :: 0 <= m < |seats| && seats[m] == seats[k] ==> !FirstAtPosition(seats, m))) ==>
              forall r, c :: 0 <= r < |view| && 0 <= c < |view[r].cells| && view[r].cells[c].Button? ==>
                view[r].cells[c].seat != seats[k]
  {
  }
}

=== FILE: seqs.dfy ===
/** Sequence combinators the client code uses (`filter`, `new Set`), with the facts
    about them that the component proofs rely on. */
module Seqs {

  /** `a` can be obtained from `b` by deleting elements: every element of `a` is matched
      with a later and later element of `b`. */
  predicate IsSubsequence<T(==)>(a: seq<T>, b: seq<T>)
    decreases |b|
  {
    || |a| == 0
    || (&& |b| > 0
        && ((a[0] == b[0] && IsSubsequence(a[1..], b[1..])) || IsSubsequence(a, b[1..])))
  }

  predicate NoDuplicates<T(==)>(s: seq<T>) {
    forall i, j :: 0 <= i < j < |s| ==> s[i] != s[j]
  }

  /** JavaScript's `Array.prototype.filter`: the elements satisfying `p`, in their order. */
  function Filter<T>(s: seq<T>, p: T -> bool): (r: seq<T>)
    ensures |r| <= |s|
  {
    if |s| == 0 then [] else (if p(s[0]) then [s[0]] else []) + Filter(s[1..], p)
  }

  /** An element is kept by `Filter` exactly when it occurs and satisfies `p`. */
  lemma {:induction false} FilterMember<T>(s: seq<T>, p: T -> bool, x: T)
    ensures x in Filter(s, p) <==> x in s && p(x)
    decreases |s|
  {
    if |s| > 0 {
      FilterMember(s[1..], p, x);
      assert s == [s[0]] + s[1..];
    }
  }

  /** Every element `Filter` keeps satisfies `p`. */
  lemma FilterAll<T>(s: seq<T>, p: T -> bool)
    ensures forall i :: 0 <= i < |Filter(s, p)| ==> p(Filter(s, p)[i])
  {
  }

  lemma {:induction false} FilterIsSubsequence<T>(s: seq<T>, p: T -> bool)
    ensures IsSubsequence(Filter(s, p), s)
    decreases |s|
  {
    if |s| > 0 {
      FilterIsSubsequence(s[1..], p);
      var rest := Filter(s[1..], p);
      if p(s[0]) {
        assert Filter(s, p) == [s[0]] + rest;
        assert ([s[0]] + rest)[1..] == rest;
      } else {
        assert Filter(s, p) == rest;
        SkipHead(rest, s);
      }
    }
  }

  /** Dropping the head of `b` keeps `a` a subsequence of the whole of `b`. */
  lemma SkipHead<T>(a: seq<T>, b: seq<T>)
    requires |b| > 0 && IsSubsequence(a, b[1..])
    ensures IsSubsequence(a, b)
  {
  }

  lemma {:induction false} FilterAppend<T>(a: seq<T>, b: seq<T>, p: T -> bool)
    ensures Filter(a + b, p) == Filter(a, p) + Filter(b, p)
    decreases |a|
  {
    if |a| > 0 {
      assert (a + b)[1..] == a[1..] + b;
      FilterAppend(a[1..], b, p);
    } else {
      assert a + b == b;
    }
  }

  lemma {:induction false} FilterIdempotent<T>(s: seq<T>, p: T -> bool)
    ensures Filter(Filter(s, p), p) == Filter(s, p)
    decreases |s|
  {
    if |s| > 0 {
      FilterIdempotent(s[1..], p);
      var rest := Filter(s[1..], p);
      if p(s[0]) {
        assert Filter(s, p) == [s[0]] + rest;
        assert ([s[0]] + rest)[1..] == rest;
        assert Filter([s[0]] + rest, p) == [s[0]] + Filter(rest, p);
      } else {
        assert Filter(s, p) == rest;
      }
    }
  }

  /** Two predicates that agree on the elements of `s` filter it alike. */
  lemma {:induction false} FilterCongruent<T>(s: seq<T>, p: T -> bool, q: T -> bool)
    requires forall i :: 0 <= i < |s| ==> p(s[i]) == q(s[i])
    ensures Filter(s, p) == Filter(s, q)
    decreases |s|
  {
    if |s| > 0 {
      FilterCongruent(s[1..], p, q);
    }
  }

  /** A filter whose predicate holds of every element keeps the whole sequence. */
  lemma {:induction false} FilterKeepsAll<T>(s: seq<T>, p: T -> bool)
    requires forall i :: 0 <= i < |s| ==> p(s[i])
    ensures Filter(s, p) == s
    decreases |s|
  {
    if |s| > 0 {
      FilterKeepsAll(s[1..], p);
      assert [s[0]] + s[1..] == s;
    }
  }

  /** `Filter` keeps every occurrence of an element satisfying `p` and none of the others. */
  lemma {:induction false} FilterCount<T>(s: seq<T>, p: T -> bool, x: T)
    ensures multiset(Filter(s, p))[x] == if p(x) then multiset(s)[x] else 0
    decreases |s|
  {
    if |s| > 0 {
      FilterCount(s[1..], p, x);
      assert s == [s[0]] + s[1..];
      assert multiset(s) == multiset([s[0]]) + multiset(s[1..]);
      assert multiset(Filter(s, p)) == multiset(if p(s[0]) then [s[0]] else []) + multiset(Filter(s[1..], p));
    }
  }

  /** The first index at which `x` occurs in `s`. */
  function IndexOf<T(==)>(s: seq<T>, x: T): (i: nat)
    requires x in s
    ensures i < |s| && s[i] == x
    ensures forall k :: 0 <= k < i ==> s[k] != x
  {
    if s[0] == x then 0 else 1 + IndexOf(s[1..], x)
  }

  /** The distinct elements of `s` in order of first appearance: what
      `Array.from(new Set(s))` yields in JavaScript. Written as the left fold the
      `Set` constructor performs. */
  function Distinct<T(==)>(s: seq<T>): (r: seq<T>)
    ensures NoDuplicates(r)
    ensures forall i :: 0 <= i < |r| ==> r[i] in s
  {
    if |s| == 0 then []
    else
      var d := Distinct(s[..|s| - 1]);
      if s[|s| - 1] in d then d else d + [s[|s| - 1]]
  }

  /** `Distinct` keeps every element and adds none. */
  lemma {:induction false} DistinctMember<T>(s: seq<T>, x: T)
    ensures x in Distinct(s) <==> x in s
    decreases |s|
  {
    if |s| > 0 {
      DistinctMember(s[..|s| - 1], x);
      assert s == s[..|s| - 1] + [s[|s| - 1]];
    }
  }

  /** `Distinct` lists the elements in the order of their first occurrence in `s`. */
  lemma {:induction false} DistinctFirstAppearanceOrder<T>(s: seq<T>)
    ensures forall i, j :: 0 <= i < j < |Distinct(s)| ==>
              IndexOf(s, Distinct(s)[i]) < IndexOf(s, Distinct(s)[j])
    decreases |s|
  {
    if |s| > 0 {
      var init := s[..|s| - 1];
      var x := s[|s| - 1];
      DistinctFirstAppearanceOrder(init);
      var d := Distinct(init);
      assert s == init + [x];
      forall y | y in init ensures IndexOf(s, y) == IndexOf(init, y) {
        IndexOfExtend(init, x, y);
      }
      DistinctMember(init, x);
      if x !in d {
        assert x !in init;
        assert IndexOf(s, x) == |init|;
        var r := d + [x];
        forall i, j | 0 <= i < j < |r| ensures IndexOf(s, r[i]) < IndexOf(s, r[j]) {
          assert r[i] == d[i] && d[i] in d;
          DistinctMember(init, d[i]);
          if j < |d| {
            assert r[j] == d[j] && d[j] in d;
            DistinctMember(init, d[j]);
          } else {
            assert IndexOf(init, r[i]) < |init|;
          }
        }
      } else {
        forall i, j | 0 <= i < j < |d| ensures IndexOf(s, d[i]) < IndexOf(s, d[j]) {
          assert d[i] in d && d[j] in d;
          DistinctMember(init, d[i]);
          DistinctMember(init, d[j]);
        }
      }
    }
  }

  lemma {:induction false} IndexOfExtend<T>(s: seq<T>, x: T, y: T)
    requires y in s
    ensures IndexOf(s + [x], y) == IndexOf(s, y)
    decreases |s|
  {
    if s[0] != y {
      assert (s + [x])[1..] == s[1..] + [x];
      IndexOfExtend(s[1..], x, y);
    }
  }
}

=== FILE: showtime_selector.dfy ===
/** The showtime picker (client/src/components/ShowtimeSelector.tsx): showtimes grouped by
    calendar date, one block per date in order of first appearance. The date formatting
    (`format(new Date(startTime), "yyyy-MM-dd")`) is the uninterpreted parameter `dateKey`.
    Date strings of that shape are never integer-like, so `Object.entries` lists them in
    insertion order. */
module ShowtimeSelector {
  import opened Wrappers
  import opened Schema
  import Seqs

  datatype Group = Group(key: string, showtimes: seq<Showtime>)

  /** The keys of the groups, in order. */
  function GroupKeys(groups: seq<Group>): (ks: seq<string>)
    ensures |ks| == |groups| && forall i :: 0 <= i < |groups| ==> ks[i] == groups[i].key
  {
    seq(|groups|, i requires 0 <= i < |groups| => groups[i].key)
  }

  /** The showtimes of all groups, concatenated in group order. */
  function Members(groups: seq<Group>): seq<Showtime>
  {
    if |groups| == 0 then [] else groups[0].showtimes + Members(groups[1..])
  }

  /** `acc[date]`: the position of the group for `key`, if there is one. */
  function FindGroup(groups: seq<Group>, key: string): (r: Option<nat>)
    ensures r.Some? ==> r.value < |groups| && groups[r.value].key == key
    ensures r.None? ==> forall i :: 0 <= i < |groups| ==> groups[i].key != key
    decreases |groups|
  {
    if |groups| == 0 then None
    else if groups[0].key == key then Some(0)
    else match FindGroup(groups[1..], key)
      case None => None
      case Some(i) => Some(i + 1)
  }

  /** One step of the `reduce`: `st` is pushed onto the group of its date, or a new group
      for that date is opened after the existing ones. */
  function AddShowtime(groups: seq<Group>, st: Showtime, dateKey: Showtime -> string): (r: seq<Group>)
    ensures |r| == |groups| || |r| == |groups| + 1
    ensures |r| > 0
  {
    match FindGroup(groups, dateKey(st))
    case Some(i) => groups[i := Group(groups[i].key, groups[i].showtimes + [st])]
    case None => groups + [Group(dateKey(st), [st])]
  }

  /** `Object.entries(groupedShowtimes)`: the `reduce` over the showtimes, left to right. */
  function GroupByDate(showtimes: seq<Showtime>, dateKey: Showtime -> string): (groups: seq<Group>)
    ensures |groups| <= |showtimes|
    ensures |groups| == 0 <==> |showtimes| == 0
    decreases |showtimes|
  {
    if |showtimes| == 0 then []
    else
      var n := |showtimes| - 1;
      AddShowtime(GroupByDate(showtimes[..n], dateKey), showtimes[n], dateKey)
  }

  // ------------------------------------------------------ reference definition

  /** The dates of the showtimes, in input order. */
  function Dates(showtimes: seq<Showtime>, dateKey: Showtime -> string): (ds: seq<string>)
    ensures |ds| == |showtimes| && forall i :: 0 <= i < |showtimes| ==> ds[i] == dateKey(showtimes[i])
  {
    seq(|showtimes|, i requires 0 <= i < |showtimes| => dateKey(showtimes[i]))
  }

  function OnDate(dateKey: Showtime -> string, key: string): Showtime -> bool {
    (st: Showtime) => dateKey(st) == key
  }

  /** The grouping the component is meant to show: one group per distinct date, in order
      of first appearance, holding that date's showtimes in input order. */
  function Reference(showtimes: seq<Showtime>, dateKey: Showtime -> string): (groups: seq<Group>)
    ensures GroupKeys(groups) == Seqs.Distinct(Dates(showtimes, dateKey))
  {
    var ks := Seqs.Distinct(Dates(showtimes, dateKey));
    seq(|ks|, i requires 0 <= i < |ks| => Group(ks[i], Seqs.Filter(showtimes, OnDate(dateKey, ks[i]))))
  }

  lemma {:induction false} FilterNone(s: seq<Showtime>, p: Showtime -> bool)
    requires forall i :: 0 <= i < |s| ==> !p(s[i])
    ensures Seqs.Filter(s, p) == []
    decreases |s|
  {
    if |s| > 0 {
      FilterNone(s[1..], p);
    }
  }

  lemma DatesSnoc(init: seq<Showtime>, x: Showtime, dateKey: Showtime -> string)
    ensures Dates(init + [x], dateKey) == Dates(init, dateKey) + [dateKey(x)]
  {
  }

  lemma DistinctSnoc(ds: seq<string>, k: string)
    ensures Seqs.Distinct(ds + [k]) ==
            if k in Seqs.Distinct(ds) then Seqs.Distinct(ds) else Seqs.Distinct(ds) + [k]
  {
  }

  lemma FilterSnoc(init: seq<Showtime>, x: Showtime, p: Showtime -> bool)
    ensures Seqs.Filter(init + [x], p) == Seqs.Filter(init, p) + (if p(x) then [x] else [])
  {
    Seqs.FilterAppend(init, [x], p);
    assert Seqs.Filter([x], p) == (if p(x) then [x] else []) + Seqs.Filter([], p);
  }

  /** The reduce step when the new showtime's date already has a group. */
  lemma StepExistingDate(init: seq<Showtime>, x: Showtime, dateKey: Showtime -> string, j: nat)
    requires FindGroup(Reference(init, dateKey), dateKey(x)) == Some(j)
    ensures AddShowtime(Reference(init, dateKey), x, dateKey) == Reference(init + [x], dateKey)
  {
    var g := Reference(init, dateKey);
    var ks := Seqs.Distinct(Dates(init, dateKey));
    var kx := dateKey(x);
    assert GroupKeys(g) == ks;
    assert ks[j] == kx;
    DatesSnoc(init, x, dateKey);
    DistinctSnoc(Dates(init, dateKey), kx);
    assert Seqs.Distinct(Dates(init + [x], dateKey)) == ks;
    var result := AddShowtime(g, x, dateKey);
    var expected := Reference(init + [x], dateKey);
    assert result == g[j := Group(g[j].key, g[j].showtimes + [x])];
    assert |result| == |expected|;
    forall i | 0 <= i < |result| ensures result[i] == expected[i] {
      FilterSnoc(init, x, OnDate(dateKey, ks[i]));
      assert expected[i] == Group(ks[i], Seqs.Filter(init + [x], OnDate(dateKey, ks[i])));
      assert g[i] == Group(ks[i], Seqs.Filter(init, OnDate(dateKey, ks[i])));
      if i != j {
        assert ks[i] != kx;
      }
    }
  }

  /** The date of `x` is not among the dates of `init`. */
  predicate NewDate(init: seq<Showtime>, x: Showtime, dateKey: Showtime -> string) {
    dateKey(x) !in Seqs.Distinct(Dates(init, dateKey))
  }

  /** The group of a new date, in the reference grouping, holds just that showtime. */
  lemma NewDateGroup(init: seq<Showtime>, x: Showtime, dateKey: Showtime -> string)
    requires NewDate(init, x, dateKey)
    ensures Seqs.Filter(init + [x], OnDate(dateKey, dateKey(x))) == [x]
  {
    var ds := Dates(init, dateKey);
    var kx := dateKey(x);
    forall m | 0 <= m < |init| ensures !OnDate(dateKey, kx)(init[m]) {
      Seqs.DistinctMember(ds, ds[m]);
    }
    FilterNone(init, OnDate(dateKey, kx));
    FilterSnoc(init, x, OnDate(dateKey, kx));
  }

  /** The reduce step when the new showtime opens a new date. */
  lemma StepNewDate(init: seq<Showtime>, x: Showtime, dateKey: Showtime -> string)
    requires FindGroup(Reference(init, dateKey), dateKey(x)).None?
    ensures AddShowtime(Reference(init, dateKey), x, dateKey) == Reference(init + [x], dateKey)
  {
    var g := Reference(init, dateKey);
    var ds := Dates(init, dateKey);
    var ks := Seqs.Distinct(ds);
    var kx := dateKey(x);
    assert GroupKeys(g) == ks;
    assert NewDate(init, x, dateKey) by {
      forall i | 0 <= i < |ks| ensures ks[i] != kx {
        assert g[i].key == ks[i];
      }
    }
    DatesSnoc(init, x, dateKey);
    DistinctSnoc(ds, kx);
    var ks' := Seqs.Distinct(Dates(init + [x], dateKey));
    assert ks' == ks + [kx];
    var result := AddShowtime(g, x, dateKey);
    var expected := Reference(init + [x], dateKey);
    assert result == g + [Group(kx, [x])];
    assert |result| == |expected|;
    forall i | 0 <= i < |g| ensures result[i] == expected[i] {
      FilterSnoc(init, x, OnDate(dateKey, ks[i]));
      assert ks'[i] == ks[i] != kx;
    }
    NewDateGroup(init, x, dateKey);
    assert result[|g|] == expected[|g|];
  }

  /** The `reduce` computes the reference grouping. */
  lemma {:induction false} GroupByDateIsReference(showtimes: seq<Showtime>, dateKey: Showtime -> string)
    ensures GroupByDate(showtimes, dateKey) == Reference(showtimes, dateKey)
    decreases |showtimes|
  {
    if |showtimes| > 0 {
      var n := |showtimes| - 1;
      var init := showtimes[..n];
      var x := showtimes[n];
      GroupByDateIsReference(init, dateKey);
      assert showtimes == init + [x];
      match FindGroup(Reference(init, dateKey), dateKey(x))
      case Some(j) => StepExistingDate(init, x, dateKey, j);
      case None => StepNewDate(init, x, dateKey);
    }
  }

  /** The keys of the groups are the distinct dates, none repeated. */
  lemma GroupKeysAreDates(showtimes: seq<Showtime>, dateKey: Showtime -> string)
    ensures GroupKeys(GroupByDate(showtimes, dateKey)) == Seqs.Distinct(Dates(showtimes, dateKey))
    ensures Seqs.NoDuplicates(GroupKeys(GroupByDate(showtimes, dateKey)))
  {
    GroupByDateIsReference(showtimes, dateKey);
  }

  /** Groups follow the first appearance of their dates. */
  lemma GroupKeysInDateOrder(showtimes: seq<Showtime>, dateKey: Showtime -> string, i: int, j: int)
    requires 0 <= i < j < |GroupByDate(showtimes, dateKey)|
    ensures GroupByDate(showtimes, dateKey)[i].key in Dates(showtimes, dateKey)
    ensures GroupByDate(showtimes, dateKey)[j].key in Dates(showtimes, dateKey)
    ensures Seqs.IndexOf(Dates(showtimes, dateKey), GroupByDate(showtimes, dateKey)[i].key)
              < Seqs.IndexOf(Dates(showtimes, dateKey), GroupByDate(showtimes, dateKey)[j].key)
  {
    var ds := Dates(showtimes, dateKey);
    GroupKeysAreDates(showtimes, dateKey);
    Seqs.DistinctMember(ds, GroupByDate(showtimes, dateKey)[i].key);
    Seqs.DistinctMember(ds, GroupByDate(showtimes, dateKey)[j].key);
    Seqs.DistinctFirstAppearanceOrder(ds);
  }

  /** Every group is non-empty, its members carry its date, and they keep their input order. */
  lemma GroupMembersShareDate(showtimes: seq<Showtime>, dateKey: Showtime -> string)
    ensures var groups := GroupByDate(showtimes, dateKey);
            forall i :: 0 <= i < |groups| ==>
              && |groups[i].showtimes| > 0
              && Seqs.IsSubsequence(groups[i].showtimes, showtimes)
              && forall k :: 0 <= k < |groups[i].showtimes| ==> dateKey(groups[i].showtimes[k]) == groups[i].key
  {
    GroupByDateIsReference(showtimes, dateKey);
    var groups := GroupByDate(showtimes, dateKey);
    var ds := Dates(showtimes, dateKey);
    var ks := Seqs.Distinct(ds);
    assert GroupKeys(groups) == ks;
    forall i | 0 <= i < |groups|
      ensures |groups[i].showtimes| > 0
      ensures Seqs.IsSubsequence(groups[i].showtimes, showtimes)
    {
      Seqs.FilterIsSubsequence(showtimes, OnDate(dateKey, ks[i]));
      assert ks[i] in ds;
      var m :| 0 <= m < |ds| && ds[m] == ks[i];
      assert OnDate(dateKey, ks[i])(showtimes[m]);
    }
  }

  /** Every showtime is in exactly one group: the one for its date. */
  lemma EachShowtimeInOneGroup(showtimes: seq<Showtime>, dateKey: Showtime -> string, m: int)
    requires 0 <= m < |showtimes|
    ensures var groups := GroupByDate(showtimes, dateKey);
            exists i :: && 0 <= i < |groups|
                        && showtimes[m] in groups[i].showtimes
                        && groups[i].key == dateKey(showtimes[m])
                        && forall j :: 0 <= j < |groups| && j != i ==> showtimes[m] !in groups[j].showtimes
  {
    GroupByDateIsReference(showtimes, dateKey);
    var groups := GroupByDate(showtimes, dateKey);
    var ds := Dates(showtimes, dateKey);
    var ks := Seqs.Distinct(ds);
    assert GroupKeys(groups) == ks;
    Seqs.DistinctMember(ds, ds[m]);
    var i := Seqs.IndexOf(ks, ds[m]);
    Seqs.FilterMember(showtimes, OnDate(dateKey, ks[i]), showtimes[m]);
    forall j | 0 <= j < |groups| && j != i ensures showtimes[m] !in groups[j].showtimes {
      assert ks[j] != ks[i];
      Seqs.FilterMember(showtimes, OnDate(dateKey, ks[j]), showtimes[m]);
    }
  }

  lemma {:induction false} MembersAppend(a: seq<Group>, b: seq<Group>)
    ensures Members(a + b) == Members(a) + Members(b)
    decreases |a|
  {
    if |a| == 0 {
      assert a + b == b;
    } else {
      assert (a + b)[1..] == a[1..] + b;
      MembersAppend(a[1..], b);
    }
  }

  /** One step of the `reduce` adds exactly the new showtime to the members. */
  lemma AddShowtimeMembers(groups: seq<Group>, st: Showtime, dateKey: Showtime -> string)
    ensures multiset(Members(AddShowtime(groups, st, dateKey))) == multiset(Members(groups)) + multiset{st}
  {
    match FindGroup(groups, dateKey(st))
    case Some(i) =>
      var g' := Group(groups[i].key, groups[i].showtimes + [st]);
      assert groups == groups[..i] + [groups[i]] + groups[i + 1..];
      assert groups[i := g'] == groups[..i] + [g'] + groups[i + 1..];
      MembersAppend(groups[..i] + [groups[i]], groups[i + 1..]);
      MembersAppend(groups[..i], [groups[i]]);
      MembersAppend(groups[..i] + [g'], groups[i + 1..]);
      MembersAppend(groups[..i], [g']);
      assert Members([g']) == g'.showtimes;
      assert Members([groups[i]]) == groups[i].showtimes;
    case None =>
      MembersAppend(groups, [Group(dateKey(st), [st])]);
      assert Members([Group(dateKey(st), [st])]) == [st];
  }

  /** Concatenating the groups gives back the input, reordered: no showtime is lost or
      duplicated. */
  lemma {:induction false} GroupingIsPermutation(showtimes: seq<Showtime>, dateKey: Showtime -> string)
    ensures multiset(Members(GroupByDate(showtimes, dateKey))) == multiset(showtimes)
    decreases |showtimes|
  {
    if |showtimes| > 0 {
      var n := |showtimes| - 1;
      GroupingIsPermutation(showtimes[..n], dateKey);
      AddShowtimeMembers(GroupByDate(showtimes[..n], dateKey), showtimes[n], dateKey);
      assert showtimes == showtimes[..n] + [showtimes[n]];
      assert multiset(showtimes) == multiset(showtimes[..n]) + multiset{showtimes[n]};
    }
  }

  /** A showtime button is highlighted when its id is the selected showtime's id. */
  predicate Highlighted(selected: Option<Showtime>, st: Showtime) {
    selected.Some? && selected.value.id == st.id
  }
}

=== FILE: wrappers.dfy ===
/** Optional values: a nullable column, an absent map entry, an undefined client value. */
module Wrappers {

  datatype Option<+T> = None | Some(value: T) {

    /** The value, or `default` when there is none (JavaScript's `x ?? default`). */
    function GetOr(default: T): T {
      match this
      case Some(v) => v
      case None => default
    }
  }
}
